=== FILE: README.md ===
# Sound manager: a verified model

A Unity sound manager plays sound effects and background music on audio
emitters that it borrows from an object pool. It keeps a *recency map* from
each clip to the emitter that last played it. Without overlap, a repeated
sound effect restarts that emitter instead of taking a new one. It changes
background music (BGM) with a fade-out of the playing emitter followed by a
fade-in of a new one. Each pooled emitter runs a per-frame check and returns
itself to the pool once playback has reached the end of its clip. Three volume
controls map a level in [0, 1] onto the mixer's range of -80 dB to 0 dB.

The model is a pure state machine over one immutable record `Sound`:

- the emitters by id;
- the pool's active set and idle store;
- the recency map;
- the BGM slot;
- the phase of the BGM change sequence.

Each operation is a function from state to state, or to a `Result` when the
source can fault. Those faults are:

- a release of an emitter already in the pool;
- an access to an emitter the pool has destroyed;
- a read of a missing clip;
- a recency-map lookup with a missing key.

`Valid` is the invariant between two calls into the manager. It requires that:

- every emitter is either active or idle, never both;
- every active emitter has a clip that the recency map knows;
- the recency map names only active emitters bound to that very clip.

Modules:

- `Emitters`: one emitter's settings and the resets applied to it.
- `SoundState`: the state record, its invariants and the initial state.
- `ObjectPool`: the pool, with the manager's take and return hooks installed.
- `SoundManager`: `PlayAudioClip`, `PlaySE` and `PlayBGM`, plus the change sequence as a step function, one tick at a time.
- `PoolItem`: the per-frame end-of-clip check, and one frame of those checks over every active emitter.
- `MixerVolume`: the three volume controls.
- `Session`: arbitrary sequences of calls and engine frames, each frame split into its checks and the resumption of the change sequence, with the faults each resumption raises.
- `FadeProgress`: how many ticks a fade-out and a fade-in take.
- `Scenarios`: two concrete sequences: the double release, and a sound effect that takes over the fade.

Four hazards of the source are kept, not fixed:

- **Missing recency key.** The return hook indexes the recency map without checking that the key is there. `Release` returns `MissingRecencyKey` or `NullClip` in that case. `Run` proves that neither fault can occur from a valid state when every clip passed in is a real clip. `ReleaseUnboundFaults` shows that releasing a just-taken emitter hits it.
- **Null clip in the per-frame check.** The per-frame check reads the clip length of a just-taken emitter, whose clip the take hook has cleared. `TakenEmitterCheckFaults` shows this gives `NullClip`. `Run` proves that, with real clips passed in, the fault cannot occur between manager calls, because `PlayAudioClip` binds the clip in the same call.
- **Double release.** The change sequence releases the outgoing emitter unconditionally. `DoubleRelease` shows a sequence of operations in which it does so after the emitter has already returned itself to the pool. With room in the idle store, that second release fails as `AlreadyReleased`. The change sequence then ends, with the BGM slot still naming the released emitter, and the game carries on. With no room, the model's second release fails as `Destroyed`, but the engine would not fault there; see `Scenarios.DoubleRelease` under "## Left out". `Run` proves these two are the only faults that can ever arise, at most one per resumption. `SoundEffectTakesOverFade` shows the other outcome: a sound effect takes the returned emitter before the sequence resumes, and the sequence fades the sound effect out instead of faulting.
- **Null clip argument.** The manager accepts a null clip. `PlayAudioClip` then takes an emitter, routes it and throws on the recency-map update. `PlayAudioClipNull` shows that the emitter is left active with no clip, so its per-frame check faults on every frame and the return hook would fault on it. `Run` takes real clips only; see `Session.Run` under "## Left out".

## Model

| member | source | states |
|---|---|---|
| SoundState.Init | Runtime/Sound/Script/SoundManager.cs:43-44 | The manager starts with an empty pool, an empty recency map, no BGM emitter and no change sequence, and that state satisfies the invariant |
| ObjectPool.Take | Runtime/Sound/Script/SoundManager.cs:63-69 | Taking an emitter hands out an idle one if there is one and otherwise a new one. It becomes active with volume 1, no clip and loop off. Every other emitter, the recency map and the BGM slot are unchanged, and the pool's partition is kept |
| ObjectPool.Release | Runtime/Sound/Script/SoundManager.cs:54-61 | Releasing an emitter that is already idle is `AlreadyReleased`, and releasing a destroyed one is `Destroyed`. A missing clip or recency key faults in the hook. Otherwise the emitter is deactivated and kept idle if the idle store has room, and destroyed if it has none. Its clip's recency entry is cleared only if it named this emitter. Every other entry and emitter is unchanged, and the invariant is kept |
| ObjectPool.ReleaseFromValid | Runtime/Sound/Script/SoundManager.cs:21-22 | Between manager calls, a release succeeds exactly when the emitter is active. Otherwise the collection check refuses it, or it reaches a destroyed emitter |
| ObjectPool.TakeAfterRelease | Runtime/Sound/Script/SoundManager.cs:63-76 | Take undoes a release into a pool with room. The emitter just returned is the next one handed out, reset, and the active set is as before the release |
| ObjectPool.ReleaseTwice | Runtime/Sound/Script/SoundManager.cs:21-22 | Releasing the same emitter twice is `AlreadyReleased` if the first release kept it and `Destroyed` if the first release destroyed it |
| ObjectPool.ReleaseUnboundFaults | Runtime/Sound/Script/SoundManager.cs:56 | Releasing an emitter straight after taking it faults in the return hook, because the take reset cleared the clip the hook uses as a key |
| SoundManager.PlayAudioClip | Runtime/Sound/Script/SoundManager.cs:78-96 | The clip plays on an emitter that was not active, with the given group, clip and loop flag, from the start at volume 1. That emitter becomes the clip's recency entry. Every other entry, every other emitter, the BGM slot and the change sequence are unchanged |
| SoundManager.PlayAudioClipNull | Runtime/Sound/Script/SoundManager.cs:78-86 | With a null clip, a fresh emitter is still taken, routed to the group with the loop flag and left not playing, with no clip, and the recency map unchanged. It is active but breaks the invariant: its per-frame check and its release both fault on the missing clip |
| SoundManager.PlaySE | Runtime/Sound/Script/SoundManager.cs:131-148 | Without overlap and with a recency entry for the clip, that emitter restarts from the beginning. Nothing is acquired, and the active set, the emitters and the recency map stay as they were. In every other case exactly one inactive emitter is acquired for the clip on the sound-effect group, and the other clips' entries are untouched |
| SoundManager.Handover | Runtime/Sound/Script/SoundManager.cs:105-108 | The outgoing BGM emitter is released, which succeeds exactly when it is still active, and otherwise faults as a double release or on a destroyed emitter. The incoming clip then enters the slot on a newly acquired emitter at volume 0, which replaces the outgoing one in the active set. The recency entry for the incoming clip names the new emitter, entries that named the outgoing emitter are cleared, and every other emitter, the other recency entries and the phase are unchanged |
| SoundManager.FadeOutStep | Runtime/Sound/Script/SoundManager.cs:100-104 | While the BGM emitter plays at a positive volume, one tick lowers its volume by dt/1 s, not below 0, and never raises it. Nothing else changes: not the other emitters, the emitter's clip or playing flag, the slot, the phase, the pool or the recency map. Once that condition fails, the hand-over runs: it succeeds exactly when the outgoing emitter is still active, and the incoming emitter then plays the requested clip on the BGM group |
| SoundManager.FadeOutEnd | Runtime/Sound/Script/SoundManager.cs:105-112 | When the fade-out loop exits, the tick succeeds exactly when the outgoing emitter is still active. On success the new emitter plays the requested clip and loop and has received the first fade-in increment; it plays on the BGM group from the start. The recency entry for the requested clip names it, entries that named the outgoing emitter are cleared, every other emitter is unchanged, and the sequence is in its fade-in part |
| SoundManager.FadeInStep | Runtime/Sound/Script/SoundManager.cs:110-114 | While the BGM volume is below 1, one tick raises it by dt/1 s, not above 1, and never lowers it; nothing but that volume changes. Once it is at 1 the sequence ends with nothing else changed. An emitter destroyed in between faults |
| SoundManager.FadeStep | Runtime/Sound/Script/SoundManager.cs:98-115 | Resuming the change sequence keeps the invariant. With no sequence running it changes nothing. It can fault only while a sequence runs, and only as a double release or on a destroyed emitter |
| SoundManager.PlayBGM | Runtime/Sound/Script/SoundManager.cs:117-129 | If no BGM emitter is playing, the clip plays at volume 1 on a newly acquired emitter in the slot, and any running sequence is left alone. Otherwise a new sequence replaces the old one. Its first tick keeps the slot and lowers the volume, or hands over at once if the volume is already 0. PlayBGM never faults |
| PoolItem.AutoRelease | Runtime/Sound/Script/AudioSourcePoolItem.cs:17-23 | An inactive emitter, or one checked before the pool is installed, changes nothing. A missing clip faults. A position below the clip length changes nothing. At or beyond it, the emitter is released and becomes inactive. Other active emitters are unchanged, and between manager calls the check never faults |
| PoolItem.AutoReleaseOnce | Runtime/Sound/Script/AudioSourcePoolItem.cs:17-22 | After an emitter has released itself, its check leaves the state alone, so it never releases itself twice |
| PoolItem.AutoReleaseAll | Runtime/Sound/Script/AudioSourcePoolItem.cs:17-23 | Checks in the order given keep the invariant and only shrink the active set. Every finished active emitter listed in `order` is released, every unfinished one is kept unchanged, and with no pool installed nothing changes |
| PoolItem.FrameChecks | Runtime/Sound/Script/AudioSourcePoolItem.cs:17-23 | One frame of checks, with every active emitter checked whatever order the engine uses, keeps the invariant. An active emitter stays active exactly when it has not reached the end of its clip, and the emitters that stay are unchanged. The BGM slot and the change sequence are untouched |
| MixerVolume.LevelToDb | Runtime/Sound/Script/SoundManager.cs:152-153 | The level maps into [-80, 0] dB. A level of 0 or below gives -80, and 1 or above gives 0 |
| MixerVolume.LevelToDbRoundTrip | Runtime/Sound/Script/SoundManager.cs:152-153 | On [0, 1] the mapping is inverted by the linear map from dB back to a level |
| MixerVolume.LevelToDbSaturates | Runtime/Sound/Script/SoundManager.cs:152 | A level outside [0, 1] writes the same value as the nearest bound |
| MixerVolume.LevelToDbMonotone | Runtime/Sound/Script/SoundManager.cs:152-153 | A louder level never writes a smaller dB value |
| MixerVolume.LevelToDbStrictlyMonotone | Runtime/Sound/Script/SoundManager.cs:153 | On [0, 1], distinct levels write distinct dB values |
| MixerVolume.SetBgmVolume | Runtime/Sound/Script/SoundManager.cs:150-155 | Writes the Bgm parameter with a value in [-80, 0] dB from which the clamped level can be recovered |
| MixerVolume.SetSeVolume | Runtime/Sound/Script/SoundManager.cs:157-162 | Writes the Se parameter with a value in [-80, 0] dB from which the clamped level can be recovered |
| MixerVolume.SetMasterVolume | Runtime/Sound/Script/SoundManager.cs:164-169 | Writes the Master parameter with a value in [-80, 0] dB from which the clamped level can be recovered |
| Session.Apply | Runtime/Sound/Script/SoundManager.cs:98-148 | Any call, frame's checks or resumption keeps the invariant. Only resuming a running change sequence can fault, and only as a double release or on a destroyed emitter |
| Session.ResumeFade | Runtime/Sound/Script/SoundManager.cs:98-115 | Resuming the change sequence keeps the invariant. A fault ends the sequence only: the state is the one the fault found, with no sequence running, and the fault is the one the step raised. Without a fault the state is the step's result. With no sequence running nothing changes and nothing faults |
| Session.Run | Runtime/Sound/Script/SoundManager.cs:54-61 | From any valid state, every sequence of calls, checks and resumptions with real clips keeps the invariant and runs to its end. The faults it records are only double releases and accesses to destroyed emitters, never a missing recency key or a missing clip. There is at most one per resumption, so a sequence without resumptions never faults |
| Session.RunKeepsVolumes | Runtime/Sound/Script/SoundManager.cs:100-114 | After any sequence of operations from the initial state, every emitter's volume is in [0, 1] |
| Session.RunKeepsRecency | Runtime/Sound/Script/SoundManager.cs:54-61 | After any sequence of operations from the initial state, the recency map never names an idle or destroyed emitter |
| Session.TakenEmitterCheckFaults | Runtime/Sound/Script/AudioSourcePoolItem.cs:19 | The per-frame check of an emitter the pool has just handed out faults on the clip the take reset cleared |
| Session.PlaySETwiceReuses | Runtime/Sound/Script/SoundManager.cs:139-141 | A second sound effect of the same clip without overlap, straight after the first, acquires nothing and leaves the recency map as it was |
| FadeProgress.FadeTicks | Runtime/Sound/Script/SoundManager.cs:98-115 | Any number of equal ticks of the change sequence keeps the invariant, and with no sequence running they change nothing |
| FadeProgress.FadeOutSilences | Runtime/Sound/Script/SoundManager.cs:100-104 | A fade-out from volume v with ticks of dt silences the outgoing emitter after exactly the first n ticks whose total change n·dt/1 s reaches v. It is then still in the slot and playing, with the active set unchanged |
| FadeProgress.FadeOutAudibleBefore | Runtime/Sound/Script/SoundManager.cs:100-104 | After each of the first k < n of those ticks, the outgoing emitter is still in the slot, playing, at a positive volume, with the phase and the active set unchanged |
| FadeProgress.SilencedHandsOver | Runtime/Sound/Script/SoundManager.cs:105-108 | The tick after the silencing releases the outgoing emitter and starts fading the requested clip in on a newly acquired emitter |
| FadeProgress.FadeInCompletes | Runtime/Sound/Script/SoundManager.cs:110-114 | A fade-in from volume v reaches volume 1 after exactly the first n ticks whose total change reaches 1 - v, and the state then differs from the start only in that volume: the same emitter, clip and playing flag in the slot, the same pool, recency map and other emitters. The tick after that ends the change sequence and changes nothing else |
| Scenarios.DoubleRelease | Runtime/Sound/Script/SoundManager.cs:105 | Play A, then request B, then let A end during the fade. On the next frame, the checks return A's emitter to the pool, and the resumed change sequence releases it a second time. With room in the idle store that release fails as `AlreadyReleased`, and in the model as `Destroyed` without room. The sequence ends there, B never plays, and the BGM slot names emitter 0, which is no longer active |
| Scenarios.SoundEffectTakesOverFade | Runtime/Sound/Script/SoundManager.cs:98-102 | As in the double release, but a sound effect with overlap is played between the frame's checks and the resumption. It takes emitter 0 back from the idle store, and the resumed change sequence finds its slot's emitter playing the sound effect at volume 1. It lowers that volume instead of faulting, with the slot and the phase unchanged |

## Left out

- Engine lifecycle: the `Awake` singleton, instantiating and destroying game objects, and the prefab (SoundManager.cs:32-51, 73-76). Creation and destruction are fresh or removed emitter ids. Every new emitter starts from one fixed state, `Emitters.Prefab`.
- Audio output: actual playback, the mixer write and the mixer groups. The model keeps the computed dB value and a group tag. The engine's advance of a playing emitter is an operation, `PoolItem.Progress`, with the new position and a stopped flag as parameters.
- Pool internals: the engine's pool source is not part of this model. Only what the manager's comments state is assumed:
  - A release of an emitter already in the pool is refused.
  - A release into a full idle store destroys the emitter.
- Acquisition limit: a take never fails and creates an emitter when none is idle. `maxPoolSize` bounds only the idle store. There is no pool-exhausted error, because nothing in the manager's code or comments bounds creation.
- Idle order: the idle store is a stack, with the most recently returned emitter handed out first. Only `ObjectPool.TakeAfterRelease` and the concrete scenario depend on this order.
- Pool size hint: `defaultPoolSize` is only an initial capacity, so it has no effect on the model.
- Unused code: the `collectionChecks` field (the pool is built with checks on) and the unused import.
- Resets: they happen when an emitter is taken (volume 1, no clip, loop off, active), not when it is returned. A return only deactivates the emitter and keeps its clip, which is what the code does.
- Scheduling: `Time.deltaTime` is the parameter `dt`, assumed non-negative as the engine guarantees. Coroutines are a fade phase resumed once per frame. A frame is a `Checks` operation, in which every active emitter is checked in an order left as a parameter, then a `Resume` operation. Calls from other scripts may come between them. A call between two emitters' checks of the same frame is not modelled; such a call is placed before or after all of that frame's checks. Starting a sequence runs its first segment at once, as the engine's start does.
- Float rounding: `float` arithmetic is modelled with exact reals, so rounding in `Mathf` is not modelled.
- Running sequence on a direct play: the branch of `PlayBGM` that plays directly does not stop a change sequence that is still running. The model keeps that, so such a sequence may later act on the new BGM emitter.
- Session.Run: the clips passed in are real clips, never null. With a null clip, `PlaySE` without overlap throws at SoundManager.cs:139 and changes nothing. `PlaySE` with overlap and `PlayBGM` take an emitter and throw at SoundManager.cs:86, leaving the emitter active with no clip, as `SoundManager.PlayAudioClipNull` states. Its per-frame check then throws on every frame. When `PlayBGM` runs the change sequence, the sequence ends there, after releasing the outgoing emitter.
- Exceptions: the engine logs an exception and carries on with the next frame. The model records the fault in the trace and carries on too. A faulting change sequence ends and leaves the BGM slot as it was, and a refused or faulting release changes nothing. Exception logging itself is not modelled.
- Pool installation: the pool is installed by `Awake` (SoundManager.cs:43) before the first state the model describes, so every frame runs with the pool installed. `PoolItem.AutoRelease` still states the uninstalled case.
- ObjectPool.ReleaseTwice: a release into a full idle store destroys the emitter at once in the model. The engine's `Destroy` (SoundManager.cs:75) takes effect at the end of the frame. So a second release in the same frame reaches a live object, passes the collection check, runs the return hook again without faulting, and destroys it again. The `Destroyed` result of `ObjectPool.Release` and `ObjectPool.ReleaseTwice` holds only once that frame has ended. Deferred destruction would need a set of doomed emitters that every frame clears, which is not modelled.
- Scenarios.DoubleRelease: for the same reason, its `Destroyed` branch (no room in the idle store) is an artefact of immediate destruction. In the engine the second release in that frame does not fault, and the change sequence goes on to play B. The `AlreadyReleased` branch is what the engine does.

=== FILE: emitters.dfy ===
/** Audio clips and the pooled audio emitters that play them. */
module Emitters {
  import opened Wrappers

  /** Emitters are engine objects; the model names each by a number the pool hands out. */
  type EmitterId = nat

  /** An audio clip: an identity plus its length in seconds. */
  datatype Clip = Clip(name: nat, length: real)

  /** The mixer groups an emitter can be routed to. */
  datatype Group = BgmGroup | SeGroup

  /** The state of one emitter that the manager reads or writes. */
  datatype Emitter = Emitter(
    clip: Option<Clip>,
    loop: bool,
    volume: real,
    group: Option<Group>,   // None: whatever the prefab was configured with
    active: bool,           // the game object's active flag; the per-tick check runs only while set
    playing: bool,
    position: real)         // playback time in seconds

  predicate InUnitRange(v: real) {
    0.0 <= v <= 1.0
  }

  /** A freshly instantiated emitter, as the prefab leaves it. */
  const Prefab: Emitter := Emitter(None, false, 1.0, None, true, false, 0.0)

  /** The reset the manager applies whenever the pool hands an emitter out. */
  function TakenFromPool(e: Emitter): Emitter {
    e.(volume := 1.0, clip := None, loop := false, active := true)
  }

  /** Deactivating the game object; an inactive audio source does not play. */
  function Deactivated(e: Emitter): Emitter {
    e.(active := false, playing := false)
  }

  /** `Play()`: playback restarts from the beginning. */
  function Started(e: Emitter): Emitter {
    e.(playing := true, position := 0.0)
  }
}

=== FILE: fade_progress.dfy ===
/**
  How the background-music change sequence progresses over consecutive ticks
  of equal length, with nothing else happening in between.
 */
module FadeProgress {
  import opened Wrappers
  import opened Emitters
  import opened SoundState
  import opened SoundManager

  /** `n` consecutive resumptions of the change sequence, each after `dt` seconds. */
  function FadeTicks(s: Sound, dt: real, n: nat): (r: Result<Sound, Fault>)
    requires Valid(s) && dt >= 0.0
    ensures r.Ok? ==> Valid(r.value)
    ensures s.fade == NoFade ==> r == Ok(s)
    decreases n
  {
    if n == 0 then Ok(s)
    else
      match FadeStep(s, dt)
      case Err(f) => Err(f)
      case Ok(s1) => FadeTicks(s1, dt, n - 1)
  }

  /**
    `r` ends a run of ticks from `s` with the BGM emitter of `s` still in the
    slot, still playing, silenced, and the sequence still in its fade-out part,
    no emitter having been acquired or released.
   */
  ghost predicate SilencedFrom(s: Sound, r: Result<Sound, Fault>)
    requires s.bgm.Some?
  {
    && r.Ok? && r.value.fade == s.fade && r.value.bgm == s.bgm
    && r.value.active == s.active
    && s.bgm.value in r.value.emitters
    && r.value.emitters[s.bgm.value].volume == 0.0
    && r.value.emitters[s.bgm.value].playing
  }

  /**
    `r` is a point of a run of ticks from `s` at which the fade-out is still
    under way: the BGM emitter of `s` is still in the slot, still playing, and
    still audible, no emitter having been acquired or released.
   */
  ghost predicate AudibleFrom(s: Sound, r: Result<Sound, Fault>)
    requires s.bgm.Some?
  {
    && r.Ok? && r.value.fade == s.fade && r.value.bgm == s.bgm
    && r.value.active == s.active
    && s.bgm.value in r.value.emitters
    && r.value.emitters[s.bgm.value].volume > 0.0
    && r.value.emitters[s.bgm.value].playing
  }

  /**
    A fade-out of a playing emitter at volume `v` silences it after exactly the
    first `n` ticks whose total change `n * dt / VolumeFadeTime` reaches `v`.
   */
  lemma {:induction false} FadeOutSilences(s: Sound, dt: real, n: nat)
    requires Valid(s) && dt > 0.0 && s.fade.FadeOut? && FadeOutContinues(s)
    requires n >= 1
    requires Total(n - 1, FadeDelta(dt)) < s.emitters[s.bgm.value].volume <= Total(n, FadeDelta(dt))
    ensures SilencedFrom(s, FadeTicks(s, dt, n))
    decreases n
  {
    var s1 := FadeOutFirstTick(s, dt, n);
    var r := FadeTicks(s1, dt, n - 1);
    assert FadeTicks(s, dt, n) == r;
    if n > 1 {
      FadeOutSilences(s1, dt, n - 1);
    }
    SilencedTransfer(s, s1, r);
  }

  lemma SilencedTransfer(s: Sound, s1: Sound, r: Result<Sound, Fault>)
    requires s.bgm.Some? && s1.fade == s.fade && s1.bgm == s.bgm && s1.active == s.active
    requires SilencedFrom(s1, r)
    ensures SilencedFrom(s, r)
  {
  }

  /**
    Peels the first tick off a run of `n` ticks that starts in a running
    fade-out: either the emitter is silenced by it, or the rest of the run
    meets the same conditions with one tick fewer.
   */
  lemma FadeOutFirstTick(s: Sound, dt: real, n: nat) returns (s1: Sound)
    requires Valid(s) && dt > 0.0 && s.fade.FadeOut? && FadeOutContinues(s)
    requires n >= 1
    requires Total(n - 1, FadeDelta(dt)) < s.emitters[s.bgm.value].volume <= Total(n, FadeDelta(dt))
    ensures Valid(s1) && FadeTicks(s, dt, n) == FadeTicks(s1, dt, n - 1)
    ensures s1.fade == s.fade && s1.bgm == s.bgm && s1.active == s.active
    ensures n == 1 ==> SilencedFrom(s1, FadeTicks(s1, dt, 0))
    ensures n >= 2 ==>
      && FadeOutContinues(s1)
      && Total(n - 2, FadeDelta(dt)) < s1.emitters[s1.bgm.value].volume <= Total(n - 1, FadeDelta(dt))
  {
    var x := s.bgm.value;
    var v := s.emitters[x].volume;
    FadeOutOneTick(s, dt);
    s1 := FadeStep(s, dt).value;
    if n == 1 {
      assert Total(1, FadeDelta(dt)) == FadeDelta(dt);
      assert FadeTicks(s1, dt, 0) == Ok(s1);
    } else {
      TicksLeft(v, FadeDelta(dt), n);
    }
  }

  /**
    Before those `n` ticks are over, the outgoing emitter is still audible:
    after each of the first `k < n` ticks it is in the slot, playing, at a
    positive volume.
   */
  lemma FadeOutAudibleBefore(s: Sound, dt: real, n: nat, k: nat)
    requires Valid(s) && dt > 0.0 && s.fade.FadeOut? && FadeOutContinues(s)
    requires k < n
    requires Total(n - 1, FadeDelta(dt)) < s.emitters[s.bgm.value].volume <= Total(n, FadeDelta(dt))
    ensures AudibleFrom(s, FadeTicks(s, dt, k))
  {
    if k == 0 {
      AudibleAtStart(s, dt);
    } else {
      TotalMonotone(k, n - 1, FadeDelta(dt));
      StillAudible(s, dt, k);
    }
  }

  lemma AudibleAtStart(s: Sound, dt: real)
    requires Valid(s) && dt > 0.0 && s.fade.FadeOut? && FadeOutContinues(s)
    ensures AudibleFrom(s, FadeTicks(s, dt, 0))
  {
    assert FadeTicks(s, dt, 0) == Ok(s);
  }

  /** While `k >= 1` ticks cannot exhaust the volume, the emitter is still audible after them. */
  lemma {:induction false} StillAudible(s: Sound, dt: real, k: nat)
    requires Valid(s) && dt > 0.0 && s.fade.FadeOut? && FadeOutContinues(s)
    requires k >= 1 && Total(k, FadeDelta(dt)) < s.emitters[s.bgm.value].volume
    ensures AudibleFrom(s, FadeTicks(s, dt, k))
    decreases k
  {
    var s1 := AudibleTick(s, dt, k);
    var r := FadeTicks(s1, dt, k - 1);
    assert FadeTicks(s, dt, k) == r;
    if k > 1 {
      StillAudible(s1, dt, k - 1);
    }
    AudibleTransfer(s, s1, r);
  }

  /** Peels the first of `k` ticks that cannot exhaust the volume off the run. */
  lemma AudibleTick(s: Sound, dt: real, k: nat) returns (s1: Sound)
    requires Valid(s) && dt > 0.0 && s.fade.FadeOut? && FadeOutContinues(s)
    requires k >= 1 && Total(k, FadeDelta(dt)) < s.emitters[s.bgm.value].volume
    ensures Valid(s1) && FadeTicks(s, dt, k) == FadeTicks(s1, dt, k - 1)
    ensures s1.fade == s.fade && s1.bgm == s.bgm && s1.active == s.active
    ensures FadeOutContinues(s1) && Total(k - 1, FadeDelta(dt)) < s1.emitters[s1.bgm.value].volume
    ensures k == 1 ==> AudibleFrom(s1, FadeTicks(s1, dt, 0))
  {
    var x := s.bgm.value;
    var d := FadeDelta(dt);
    FadeOutOneTick(s, dt);
    TotalAtLeast(k, d);
    s1 := FadeStep(s, dt).value;
    assert s1.emitters[x].volume == s.emitters[x].volume - d;
    assert FadeTicks(s1, dt, 0) == Ok(s1);
  }

  lemma AudibleTransfer(s: Sound, s1: Sound, r: Result<Sound, Fault>)
    requires s.bgm.Some? && s1.fade == s.fade && s1.bgm == s.bgm && s1.active == s.active
    requires AudibleFrom(s1, r)
    ensures AudibleFrom(s, r)
  {
  }

  /** More ticks never change the volume less. */
  lemma {:induction false} TotalMonotone(j: nat, k: nat, d: real)
    requires j <= k && d > 0.0
    ensures Total(j, d) <= Total(k, d)
    decreases k
  {
    if j < k {
      TotalMonotone(j, k - 1, d);
    }
  }

  /**
    `r` ends a run of ticks from `s` with the BGM emitter of `s` at full
    volume and nothing else changed: the same emitter, clip and playing flag
    in the slot, the sequence still in its fade-in part, the same pool and
    recency map.
   */
  ghost predicate FullFrom(s: Sound, r: Result<Sound, Fault>)
    requires s.bgm.Some?
  {
    && r.Ok? && s.bgm.value in s.emitters
    && r.value == WithVolume(s, s.bgm.value, 1.0)
  }

  /**
    A fade-in from volume `v` reaches full volume after exactly the first `n`
    ticks whose total change reaches `1 - v`, and the tick after that ends the
    change sequence without touching anything else.
   */
  lemma {:induction false} FadeInCompletes(s: Sound, dt: real, n: nat)
    requires Valid(s) && dt > 0.0 && s.fade == FadeIn && s.bgm.value in s.emitters
    requires n >= 1
    requires Total(n - 1, FadeDelta(dt)) < 1.0 - s.emitters[s.bgm.value].volume <= Total(n, FadeDelta(dt))
    ensures FullFrom(s, FadeTicks(s, dt, n))
    ensures FadeTicks(s, dt, n + 1) == Ok(FadeTicks(s, dt, n).value.(fade := NoFade))
    decreases n
  {
    var s1 := FadeInFirstTick(s, dt, n);
    var r := FadeTicks(s1, dt, n - 1);
    assert FadeTicks(s, dt, n) == r;
    if n > 1 {
      FadeInCompletes(s1, dt, n - 1);
      assert FadeTicks(s1, dt, n - 1 + 1) == Ok(r.value.(fade := NoFade));
      FullTransfer(s, s1, s1.emitters[s.bgm.value].volume, r);
    }
  }

  lemma FullTransfer(s: Sound, s1: Sound, w: real, r: Result<Sound, Fault>)
    requires s.bgm.Some? && s.bgm.value in s.emitters && s1 == WithVolume(s, s.bgm.value, w)
    requires FullFrom(s1, r)
    ensures FullFrom(s, r)
  {
    var x := s.bgm.value;
    assert s1.emitters[x := s1.emitters[x].(volume := 1.0)] == s.emitters[x := s.emitters[x].(volume := 1.0)];
  }

  /** At full volume, the next tick of a fade-in only ends the change sequence. */
  lemma FullEnds(s: Sound, dt: real)
    requires Valid(s) && dt > 0.0 && s.fade == FadeIn && s.bgm.value in s.emitters
    requires s.emitters[s.bgm.value].volume == 1.0
    ensures FadeTicks(s, dt, 0) == Ok(s)
    ensures FadeTicks(s, dt, 1) == Ok(s.(fade := NoFade))
  {
    assert FadeStep(s, dt) == Ok(s.(fade := NoFade));
    assert FadeTicks(s.(fade := NoFade), dt, 0) == Ok(s.(fade := NoFade));
  }

  /**
    Peels the first tick off a run of `n` (and of `n + 1`) ticks that starts
    in a fade-in: either it brings the emitter to full volume, or the rest of
    the run meets the same conditions with one tick fewer.
   */
  lemma FadeInFirstTick(s: Sound, dt: real, n: nat) returns (s1: Sound)
    requires Valid(s) && dt > 0.0 && s.fade == FadeIn && s.bgm.value in s.emitters
    requires n >= 1
    requires Total(n - 1, FadeDelta(dt)) < 1.0 - s.emitters[s.bgm.value].volume <= Total(n, FadeDelta(dt))
    ensures Valid(s1) && FadeTicks(s, dt, n) == FadeTicks(s1, dt, n - 1)
    ensures FadeTicks(s, dt, n + 1) == FadeTicks(s1, dt, n)
    ensures s1.fade == FadeIn && s1.bgm == s.bgm && s1.active == s.active && s.bgm.value in s1.emitters
    ensures s1 == WithVolume(s, s.bgm.value, Min(s.emitters[s.bgm.value].volume + FadeDelta(dt), 1.0))
    ensures n == 1 ==> FullFrom(s, FadeTicks(s1, dt, 0))
    ensures n == 1 ==> FadeTicks(s1, dt, 1) == Ok(FadeTicks(s1, dt, 0).value.(fade := NoFade))
    ensures n >= 2 ==>
      Total(n - 2, FadeDelta(dt)) < 1.0 - s1.emitters[s.bgm.value].volume <= Total(n - 1, FadeDelta(dt))
  {
    var x := s.bgm.value;
    var v := s.emitters[x].volume;
    var d := FadeDelta(dt);
    assert v < 1.0 by { assert Total(n - 1, d) >= 0.0 by { TotalMonotone(0, n - 1, d); } }
    s1 := FadeInRises(s, dt);
    if n == 1 {
      assert Total(1, d) == d;
      FullEnds(s1, dt);
    } else {
      TicksLeft(1.0 - v, d, n);
      assert s1.emitters[x].volume == v + d;
    }
  }

  /** Below full volume, one tick of a fade-in raises the slot emitter's volume and nothing else. */
  lemma FadeInRises(s: Sound, dt: real) returns (s1: Sound)
    requires Valid(s) && dt >= 0.0 && s.fade == FadeIn && s.bgm.value in s.emitters
    requires s.emitters[s.bgm.value].volume < 1.0
    ensures FadeStep(s, dt) == Ok(s1) && Valid(s1)
    ensures s1 == WithVolume(s, s.bgm.value, Min(s.emitters[s.bgm.value].volume + FadeDelta(dt), 1.0))
  {
    s1 := FadeInStep(s, dt).value;
  }

  /** One tick of a running fade-out touches nothing but the outgoing emitter's volume. */
  lemma FadeOutOneTick(s: Sound, dt: real)
    requires Valid(s) && dt >= 0.0 && s.fade.FadeOut? && FadeOutContinues(s)
    ensures var x := s.bgm.value;
      var r := FadeStep(s, dt);
      && r.Ok? && r.value.fade == s.fade && r.value.bgm == s.bgm && r.value.active == s.active
      && x in r.value.emitters && r.value.emitters[x].playing
      && r.value.emitters[x].volume == Max(s.emitters[x].volume - FadeDelta(dt), 0.0)
      && (r.value.emitters[x].volume > 0.0 ==> FadeOutContinues(r.value))
  {
    var x := s.bgm.value;
    assert FadeStep(s, dt) == Ok(WithVolume(s, x, Max(s.emitters[x].volume - FadeDelta(dt), 0.0)));
  }

  /** The total change `n` ticks of `d` each make: `n * d`, written as a sum. */
  function Total(n: nat, d: real): real {
    if n == 0 then 0.0 else Total(n - 1, d) + d
  }

  /** If more than one tick of `d` is needed to exhaust `v`, one tick leaves one fewer needed. */
  lemma TicksLeft(v: real, d: real, n: nat)
    requires d > 0.0 && n >= 2
    requires Total(n - 1, d) < v <= Total(n, d)
    ensures v - d > 0.0 && Max(v - d, 0.0) == v - d
    ensures Total(n - 2, d) < v - d <= Total(n - 1, d)
  {
    TotalAtLeast(n - 1, d);
  }

  lemma {:induction false} TotalAtLeast(n: nat, d: real)
    requires d > 0.0 && n >= 1
    ensures Total(n, d) >= d
  {
    if n > 1 {
      TotalAtLeast(n - 1, d);
    }
  }

  /**
    Once silenced while still playing, the outgoing emitter is released on the
    next tick and the incoming clip starts fading in on a fresh BGM emitter.
   */
  lemma SilencedHandsOver(s: Sound, dt: real)
    requires Valid(s) && dt >= 0.0 && s.fade.FadeOut? && BgmPlaying(s)
    requires s.emitters[s.bgm.value].volume == 0.0
    ensures var r := FadeStep(s, dt);
      && r.Ok? && r.value.fade == FadeIn && r.value.bgm.Some?
      && r.value.active == (s.active - {s.bgm.value}) + {r.value.bgm.value}
      && r.value.emitters[r.value.bgm.value].clip == Some(s.fade.clip)
  {
  }
}

=== FILE: mixer_volume.dfy ===
/**
  The three volume controls: a linear level is clamped to [0, 1] and mapped
  linearly onto the mixer's attenuation range of -80 dB to 0 dB, then written
  to the mixer parameter of the channel.
 */
module MixerVolume {

  /** The attenuation written for silence. */
  const MinDb: real := -80.0

  /** The attenuation written for full volume. */
  const MaxDb: real := 0.0

  /** The exposed mixer parameters the controls write. */
  datatype Channel = Bgm | Se | Master

  /** One write of a decibel value to a mixer parameter. */
  datatype MixerWrite = MixerWrite(channel: Channel, db: real)

  /** The engine's clamp of `v` to [lo, hi]. */
  function Clamp(v: real, lo: real, hi: real): real
    requires lo <= hi
  {
    if v < lo then lo else if v > hi then hi else v
  }

  /** The engine's linear interpolation, which clamps `t` to [0, 1] itself. */
  function Lerp(a: real, b: real, t: real): real {
    a + (b - a) * Clamp(t, 0.0, 1.0)
  }

  /** The decibel value a volume control writes for the level `v`. */
  function LevelToDb(v: real): (db: real)
    ensures MinDb <= db <= MaxDb
    ensures v <= 0.0 ==> db == MinDb
    ensures v >= 1.0 ==> db == MaxDb
  {
    Lerp(MinDb, MaxDb, Clamp(v, 0.0, 1.0))
  }

  /** An independent inverse of the mapping on [-80, 0] dB. */
  function DbToLevel(db: real): real {
    (db - MinDb) / (MaxDb - MinDb)
  }

  /** Within [0, 1] the mapping loses nothing: converting back yields the level. */
  lemma LevelToDbRoundTrip(v: real)
    requires 0.0 <= v <= 1.0
    ensures DbToLevel(LevelToDb(v)) == v
  {
  }

  /** Levels outside [0, 1] write the same value as the nearest bound. */
  lemma LevelToDbSaturates(v: real)
    ensures LevelToDb(v) == LevelToDb(Clamp(v, 0.0, 1.0))
  {
  }

  /** A louder level never writes a smaller decibel value. */
  lemma LevelToDbMonotone(u: real, v: real)
    requires u <= v
    ensures LevelToDb(u) <= LevelToDb(v)
  {
  }

  /** Inside [0, 1] distinct levels write distinct values. */
  lemma LevelToDbStrictlyMonotone(u: real, v: real)
    requires 0.0 <= u < v <= 1.0
    ensures LevelToDb(u) < LevelToDb(v)
  {
  }

  /** The write of the Bgm volume control: the level, clamped to [0, 1], is recoverable from it. */
  function SetBgmVolume(v: real): (w: MixerWrite)
    ensures w.channel == Bgm
    ensures MinDb <= w.db <= MaxDb
    ensures DbToLevel(w.db) == Clamp(v, 0.0, 1.0)
  {
    MixerWrite(Bgm, LevelToDb(v))
  }

  /** The write of the Se volume control: the level, clamped to [0, 1], is recoverable from it. */
  function SetSeVolume(v: real): (w: MixerWrite)
    ensures w.channel == Se
    ensures MinDb <= w.db <= MaxDb
    ensures DbToLevel(w.db) == Clamp(v, 0.0, 1.0)
  {
    MixerWrite(Se, LevelToDb(v))
  }

  /** The write of the Master volume control: the level, clamped to [0, 1], is recoverable from it. */
  function SetMasterVolume(v: real): (w: MixerWrite)
    ensures w.channel == Master
    ensures MinDb <= w.db <= MaxDb
    ensures DbToLevel(w.db) == Clamp(v, 0.0, 1.0)
  {
    MixerWrite(Master, LevelToDb(v))
  }
}

=== FILE: object_pool.dfy ===
/**
  The engine's object pool of audio emitters, together with the two hooks the
  manager installs on it: the reset applied when an emitter is taken and the
  recency clean-up applied when one is returned. Only what the manager's own
  comments state about the pool is assumed: returning an emitter that is
  already in the pool is an error, and once the idle store is full a returned
  emitter is destroyed instead of kept.
 */
module ObjectPool {
  import opened Wrappers
  import opened Emitters
  import opened SoundState

  /**
    Hands out an emitter: the most recently returned idle one if there is any,
    otherwise a newly created one. Creation is not bounded.
   */
  function Take(s: Sound): (r: Acquired)
    requires PoolValid(s)
    ensures PoolValid(r.state)
    ensures r.id !in s.active && r.state.active == s.active + {r.id}
    ensures r.id in s.emitters <==> |s.idle| > 0
    ensures r.id in s.emitters ==> r.id in s.idle && |r.state.idle| == |s.idle| - 1
    ensures r.id !in s.emitters ==> r.state.idle == s.idle
    ensures r.id in r.state.emitters && r.id !in r.state.idle
    ensures var e := r.state.emitters[r.id];
      e.volume == 1.0 && e.clip == None && !e.loop && e.active
    ensures r.state.emitters.Keys == s.emitters.Keys + {r.id}
    ensures forall x :: x in s.emitters && x != r.id ==> r.state.emitters[x] == s.emitters[x]
    ensures r.state.recent == s.recent && r.state.bgm == s.bgm && r.state.fade == s.fade
    ensures r.state.maxSize == s.maxSize
  {
    if |s.idle| > 0 then
      var id := s.idle[|s.idle| - 1];
      PopKeepsPool(s);
      Acquired(Popped(s), id)
    else
      var id := s.nextId;
      CreateKeepsPool(s);
      Acquired(Created(s), id)
  }

  /** The state after the top idle emitter has been handed out. */
  function Popped(s: Sound): Sound
    requires PoolValid(s) && |s.idle| > 0
  {
    var id := s.idle[|s.idle| - 1];
    s.(idle := s.idle[..|s.idle| - 1],
       active := s.active + {id},
       emitters := s.emitters[id := TakenFromPool(s.emitters[id])])
  }

  /** The state after a new emitter has been created and handed out. */
  function Created(s: Sound): Sound {
    s.(nextId := s.nextId + 1,
       active := s.active + {s.nextId},
       emitters := s.emitters[s.nextId := TakenFromPool(Prefab)])
  }

  lemma PopKeepsPool(s: Sound)
    requires PoolValid(s) && |s.idle| > 0
    ensures PoolValid(Popped(s))
    ensures var id := s.idle[|s.idle| - 1];
      forall x :: x in s.idle && x != id ==> x in Popped(s).idle
  {
    var id := s.idle[|s.idle| - 1];
    var s' := Popped(s);
    forall x | x in s.idle && x != id ensures x in s'.idle {
      var i :| 0 <= i < |s.idle| && s.idle[i] == x;
      assert s'.idle[i] == x;
    }
    assert forall x :: x in s'.idle ==> x in s.idle && x != id;
  }

  lemma CreateKeepsPool(s: Sound)
    requires PoolValid(s)
    ensures PoolValid(Created(s))
  {
  }

  /** The recency map after `OnReturnedToPool` has seen an emitter of clip `c` return. */
  function ClearRecency(recent: map<Clip, Option<EmitterId>>, c: Clip, id: EmitterId): map<Clip, Option<EmitterId>>
    requires c in recent
  {
    if recent[c] == Some(id) then recent[c := None] else recent
  }

  /**
    Returns an emitter to the pool: the collection check first, then the
    manager's return hook, then the emitter is kept idle if the idle store has
    room and destroyed otherwise. Destruction takes effect at once here; the
    engine carries it out at the end of the frame.
   */
  function Release(s: Sound, id: EmitterId): (r: Result<Sound, Fault>)
    requires PoolValid(s)
    ensures id !in s.emitters ==> r == Err(Destroyed(id))
    ensures id in s.idle ==> r == Err(AlreadyReleased(id))
    ensures id in s.active && s.emitters[id].clip.None? ==> r == Err(NullClip(id))
    ensures id in s.active && s.emitters[id].clip.Some? && s.emitters[id].clip.value !in s.recent ==>
      r == Err(MissingRecencyKey(id, s.emitters[id].clip.value))
    ensures r.Ok? <==> id in s.active && s.emitters[id].clip.Some? && s.emitters[id].clip.value in s.recent
    ensures r.Ok? ==> PoolValid(r.value)
    ensures r.Ok? ==> id !in r.value.active && r.value.active == s.active - {id}
    ensures r.Ok? ==> (id in r.value.idle <==> |s.idle| < s.maxSize)
    ensures r.Ok? ==> (id in r.value.emitters <==> |s.idle| < s.maxSize)
    ensures r.Ok? && id in r.value.emitters ==> !r.value.emitters[id].active && !r.value.emitters[id].playing
    ensures r.Ok? ==>
      var c := s.emitters[id].clip.value;
      && r.value.recent.Keys == s.recent.Keys
      && r.value.recent[c] == (if s.recent[c] == Some(id) then None else s.recent[c])
      && (forall c' :: c' in s.recent && c' != c ==> r.value.recent[c'] == s.recent[c'])
    ensures r.Ok? ==> forall x :: x in s.emitters && x != id ==>
      x in r.value.emitters && r.value.emitters[x] == s.emitters[x]
    ensures r.Ok? ==> r.value.emitters.Keys <= s.emitters.Keys
    ensures r.Ok? ==> r.value.bgm == s.bgm && r.value.fade == s.fade && r.value.maxSize == s.maxSize
    ensures r.Ok? && Valid(s) ==> Valid(r.value)
  {
    if id !in s.emitters then Err(Destroyed(id))
    else if id in s.idle then Err(AlreadyReleased(id))
    else
      var e := s.emitters[id];
      match e.clip
      case None => Err(NullClip(id))
      case Some(c) =>
        if c !in s.recent then Err(MissingRecencyKey(id, c))
        else
          ReturnKeepsPool(s, id);
          Ok(Returned(s, id))
  }

  /** The state after an active emitter with a recorded clip has gone back to the pool. */
  function Returned(s: Sound, id: EmitterId): Sound
    requires id in s.active && id in s.emitters
    requires s.emitters[id].clip.Some? && s.emitters[id].clip.value in s.recent
  {
    var e := s.emitters[id];
    var recent' := ClearRecency(s.recent, e.clip.value, id);
    if |s.idle| < s.maxSize then
      s.(recent := recent',
         active := s.active - {id},
         idle := s.idle + [id],
         emitters := s.emitters[id := Deactivated(e)])
    else
      s.(recent := recent',
         active := s.active - {id},
         emitters := s.emitters - {id})
  }

  lemma ReturnKeepsPool(s: Sound, id: EmitterId)
    requires PoolValid(s) && id in s.active
    requires s.emitters[id].clip.Some? && s.emitters[id].clip.value in s.recent
    ensures PoolValid(Returned(s, id))
    ensures Valid(s) ==> Valid(Returned(s, id))
  {
    if |s.idle| < s.maxSize {
      ReturnToIdleKeepsPool(s, id);
    } else {
      var s' := Returned(s, id);
      assert s'.idle == s.idle;
    }
    if Valid(s) {
      ReturnKeepsRecency(s, id);
    }
  }

  lemma ReturnToIdleKeepsPool(s: Sound, id: EmitterId)
    requires PoolValid(s) && id in s.active && |s.idle| < s.maxSize
    requires s.emitters[id].clip.Some? && s.emitters[id].clip.value in s.recent
    ensures PoolValid(Returned(s, id))
  {
    var s' := Returned(s, id);
    assert s'.idle == s.idle + [id];
    assert forall x :: x in s'.idle ==> x in s.idle || x == id;
  }

  lemma ReturnKeepsRecency(s: Sound, id: EmitterId)
    requires Valid(s) && id in s.active
    ensures RecencySound(Returned(s, id)) && ActiveBound(Returned(s, id))
  {
    var s' := Returned(s, id);
    forall c' | c' in s'.recent && s'.recent[c'].Some?
      ensures var x := s'.recent[c'].value;
        x in s'.active && x in s'.emitters && s'.emitters[x].clip == Some(c')
    {
      assert s.recent[c'] == s'.recent[c'];
    }
  }

  /** From a state between manager calls, releasing fails exactly when the emitter is not active. */
  lemma ReleaseFromValid(s: Sound, id: EmitterId)
    requires Valid(s)
    ensures Release(s, id).Ok? <==> id in s.active
    ensures id !in s.active ==>
      Release(s, id) == Err(AlreadyReleased(id)) || Release(s, id) == Err(Destroyed(id))
  {
  }

  /**
    Between manager calls, releasing an active emitter clears exactly the
    recency entries that name it and leaves every other entry alone.
   */
  lemma ReleaseRecency(s: Sound, id: EmitterId)
    requires Valid(s) && id in s.active
    ensures Release(s, id).Ok?
    ensures Release(s, id).value.recent.Keys == s.recent.Keys
    ensures forall c :: c in s.recent ==>
      Release(s, id).value.recent[c] == (if s.recent[c] == Some(id) then None else s.recent[c])
  {
    ReleaseFromValid(s, id);
  }

  /**
    Take undoes a kept release: the emitter just returned to a pool with room
    is the next one handed out, reset for reuse.
   */
  lemma TakeAfterRelease(s: Sound, id: EmitterId)
    requires Valid(s) && id in s.active && |s.idle| < s.maxSize
    ensures Release(s, id).Ok?
    ensures var t := Take(Release(s, id).value);
      && t.id == id && t.state.active == s.active
      && t.state.emitters[id].clip.None? && t.state.emitters[id].volume == 1.0
  {
    ReleasedOnTop(s, id);
    var s1 := Returned(s, id);
    TakeTop(s1);
    assert s1.idle[|s1.idle| - 1] == id;
    assert (s.active - {id}) + {id} == s.active;
  }

  /** A kept release puts the emitter on top of the idle store. */
  lemma ReleasedOnTop(s: Sound, id: EmitterId)
    requires Valid(s) && id in s.active && |s.idle| < s.maxSize
    ensures Release(s, id) == Ok(Returned(s, id))
    ensures Returned(s, id).idle == s.idle + [id]
  {
  }

  /** With idle emitters available, Take hands out the one on top. */
  lemma TakeTop(s: Sound)
    requires PoolValid(s) && |s.idle| > 0
    ensures Take(s).id == s.idle[|s.idle| - 1]
  {
  }

  /** A second release of the same emitter is refused by the pool or reaches a destroyed object. */
  lemma ReleaseTwice(s: Sound, id: EmitterId)
    requires Valid(s) && id in s.active
    ensures Release(s, id).Ok?
    ensures var r := Release(Release(s, id).value, id);
      r == Err(if |s.idle| < s.maxSize then AlreadyReleased(id) else Destroyed(id))
  {
    ReleaseFromValid(s, id);
  }

  /**
    Releasing an emitter straight after taking it, before a clip is bound,
    faults in the return hook: the reset has unbound its clip, which the hook
    uses as the recency map's key.
   */
  lemma ReleaseUnboundFaults(s: Sound)
    requires PoolValid(s)
    ensures var t := Take(s);
      Release(t.state, t.id) == Err(NullClip(t.id))
  {
  }
}

=== FILE: pool_item.dfy ===
/**
  The per-tick check every pooled emitter runs while its game object is
  active: once playback has reached the end of the clip, the emitter returns
  itself to the shared pool, provided that pool has been installed.
 */
module PoolItem {
  import opened Wrappers
  import opened Emitters
  import opened SoundState
  import opened ObjectPool

  /** Whether the check of emitter `e` fires, given that the pool is installed. */
  predicate Finished(e: Emitter)
    requires e.clip.Some?
  {
    e.position >= e.clip.value.length
  }

  /**
    The per-tick check of emitter `id`. It runs only while the emitter is
    active. With the pool installed it reads the clip's length, which faults
    when no clip is bound, and releases the emitter once its position has
    reached that length.
   */
  function AutoRelease(s: Sound, poolInstalled: bool, id: EmitterId): (r: Result<Sound, Fault>)
    requires PoolValid(s)
    ensures id !in s.active || !poolInstalled ==> r == Ok(s)
    ensures id in s.active && poolInstalled && s.emitters[id].clip.None? ==> r == Err(NullClip(id))
    ensures id in s.active && poolInstalled && s.emitters[id].clip.Some? && !Finished(s.emitters[id]) ==>
      r == Ok(s)
    ensures Valid(s) ==> r.Ok? && Valid(r.value)
    ensures Valid(s) ==> forall x :: x in r.value.active ==>
      x in s.active && x in s.emitters && x in r.value.emitters && r.value.emitters[x] == s.emitters[x]
    ensures Valid(s) && id in s.active && poolInstalled && Finished(s.emitters[id]) ==>
      && r.value.active == s.active - {id}
      && (id in r.value.emitters ==> !r.value.emitters[id].active)
      && r.value.bgm == s.bgm && r.value.fade == s.fade
  {
    if id !in s.active || !poolInstalled then Ok(s)
    else
      var e := s.emitters[id];
      if e.clip.None? then Err(NullClip(id))
      else if Finished(e) then Release(s, id)
      else Ok(s)
  }

  /**
    Once an emitter has released itself it is inactive, so its check no longer
    runs: a second check in the same or a later tick leaves the state alone.
   */
  lemma AutoReleaseOnce(s: Sound, poolInstalled: bool, id: EmitterId)
    requires Valid(s)
    requires id in s.active && poolInstalled && Finished(s.emitters[id])
    ensures AutoRelease(s, poolInstalled, id).Ok?
    ensures var s1 := AutoRelease(s, poolInstalled, id).value;
      AutoRelease(s1, poolInstalled, id) == Ok(s1)
  {
  }

  /**
    The checks of one tick, run in the order the engine happens to call the
    emitters' updates. Only the emitters listed in `order` are checked.
   */
  function AutoReleaseAll(s: Sound, poolInstalled: bool, order: seq<EmitterId>): (r: Result<Sound, Fault>)
    requires Valid(s)
    ensures r.Ok? && Valid(r.value)
    ensures r.value.active <= s.active
    ensures r.value.bgm == s.bgm && r.value.fade == s.fade
    ensures !poolInstalled ==> r == Ok(s)
    ensures forall x :: x in order && x in s.active && poolInstalled && Finished(s.emitters[x]) ==>
      x !in r.value.active
    ensures forall x :: x in s.active && !Finished(s.emitters[x]) ==>
      x in r.value.active && x in r.value.emitters && r.value.emitters[x] == s.emitters[x]
    decreases |order|
  {
    if |order| == 0 then Ok(s)
    else
      var s1 := AutoRelease(s, poolInstalled, order[0]).value;
      AutoReleaseAll(s1, poolInstalled, order[1..])
  }

  /** Every emitter identity handed out so far, in creation order. */
  function Ids(n: nat): (r: seq<EmitterId>)
    ensures forall x: EmitterId :: x < n ==> x in r
    decreases n
  {
    if n == 0 then [] else Ids(n - 1) + [n - 1]
  }

  /**
    The checks of one frame. The engine calls the update of every active
    emitter once per frame; `order` lists the emitters whose checks come first,
    and every emitter it leaves out is checked after them, by identity. A check
    of an emitter that has already been checked in the frame changes nothing,
    so whatever order the engine uses, some `order` describes it.
   */
  function FrameChecks(s: Sound, order: seq<EmitterId>): (r: Sound)
    requires Valid(s)
    ensures Valid(r)
    ensures forall x :: x in s.active ==> (x in r.active <==> !Finished(s.emitters[x]))
    ensures r.active <= s.active
    ensures forall x :: x in r.active ==> x in r.emitters && r.emitters[x] == s.emitters[x]
    ensures r.bgm == s.bgm && r.fade == s.fade
  {
    var all := order + Ids(s.nextId);
    assert forall x :: x in s.active ==> x in all;
    AutoReleaseAll(s, true, all).value
  }

  /**
    The audio engine's side of a tick for emitter `id`: playback has advanced to
    `position`, and `stopped` says whether the engine has stopped it. The engine
    only advances emitters that are active.
   */
  function Progress(s: Sound, id: EmitterId, position: real, stopped: bool): (r: Sound)
    requires Valid(s)
    ensures Valid(r)
    ensures r.active == s.active && r.recent == s.recent && r.bgm == s.bgm && r.fade == s.fade
    ensures id in s.active ==>
      r.emitters[id].position == position
      && r.emitters[id].playing == (s.emitters[id].playing && !stopped)
    ensures id !in s.active ==> r == s
  {
    if id in s.active then
      var e := s.emitters[id];
      s.(emitters := s.emitters[id := e.(position := position, playing := e.playing && !stopped)])
    else s
  }
}

=== FILE: scenarios.dfy ===
/**
  Concrete call sequences that reach the faults the background-music change
  sequence can raise.
 */
module Scenarios {
  import opened Wrappers
  import opened Emitters
  import opened SoundState
  import opened ObjectPool
  import opened SoundManager
  import opened PoolItem
  import opened Session

  const A: Clip := Clip(0, 2.0)
  const B: Clip := Clip(1, 3.0)

  /** Emitter 0 as music A leaves it: playing from the start at full volume. */
  const PlayingA: Emitter := Emitter(Some(A), false, 1.0, Some(BgmGroup), true, true, 0.0)

  /** After the first request: A plays on emitter 0, the only emitter. */
  function AfterA(maxSize: nat): Sound {
    Sound(map[0 := PlayingA], {0}, [], 1, maxSize, map[A := Some(0)], Some(0), NoFade)
  }

  /** After the second request: the change to B has begun and lowered A's volume once. */
  function AfterB(maxSize: nat): Sound {
    AfterA(maxSize).(emitters := map[0 := PlayingA.(volume := 0.75)], fade := FadeOut(B, false))
  }

  /** After the engine has played A to its end and stopped it. */
  function AfterEnd(maxSize: nat): Sound {
    AfterB(maxSize).(emitters := map[0 := PlayingA.(volume := 0.75, position := 2.0, playing := false)])
  }

  lemma StepA(maxSize: nat)
    ensures Apply(Init(maxSize), PlayBgm(A, false, 0.0)) == Step(AfterA(maxSize), None)
  {
    var s0 := Init(maxSize);
    var t := Take(s0);
    assert t.id == 0 && t.state.emitters == map[0 := TakenFromPool(Prefab)];
    var a := PlayAudioClip(s0, A, BgmGroup, false);
    assert a.id == 0;
    assert a.state.emitters == map[0 := PlayingA];
    assert a.state.active == {0};
    assert a.state.recent == map[A := Some(0)];
    assert a.state.(bgm := Some(0)) == AfterA(maxSize);
  }

  /** The state after the tick's end-of-clip check has returned emitter 0 to the pool. */
  function AfterCheck(maxSize: nat): Sound {
    var e := PlayingA.(volume := 0.75, position := 2.0, playing := false, active := false);
    if maxSize > 0 then
      Sound(map[0 := e], {}, [0], 1, maxSize, map[A := None], Some(0), FadeOut(B, false))
    else
      Sound(map[], {}, [], 1, maxSize, map[A := None], Some(0), FadeOut(B, false))
  }

  lemma AfterAValid(maxSize: nat)
    ensures Valid(AfterA(maxSize))
  {
    var s := AfterA(maxSize);
    assert s.emitters.Keys == {0};
    assert PoolValid(s);
  }

  lemma AfterBValid(maxSize: nat)
    ensures Valid(AfterB(maxSize))
  {
    var s := AfterB(maxSize);
    assert s.emitters.Keys == {0};
    assert PoolValid(s);
  }

  lemma AfterEndValid(maxSize: nat)
    ensures Valid(AfterEnd(maxSize))
  {
    var s := AfterEnd(maxSize);
    assert s.emitters.Keys == {0};
    assert PoolValid(s);
  }

  lemma AfterCheckValid(maxSize: nat)
    ensures Valid(AfterCheck(maxSize))
  {
    var s := AfterCheck(maxSize);
    if maxSize > 0 {
      assert s.emitters.Keys == {0};
      assert PoolValid(s);
    } else {
      assert PoolValid(s);
    }
  }

  lemma StepB(maxSize: nat)
    ensures Valid(AfterA(maxSize))
    ensures Apply(AfterA(maxSize), PlayBgm(B, false, 0.25)) == Step(AfterB(maxSize), None)
  {
    AfterAValid(maxSize);
    var s := AfterA(maxSize);
    var sf := s.(fade := FadeOut(B, false));
    assert BgmPlaying(s);
    assert Apply(s, PlayBgm(B, false, 0.25)).state == FadeOutStep(sf, 0.25).value;
    FadeOutOnA(maxSize);
  }

  lemma FadeOutOnA(maxSize: nat)
    ensures Valid(AfterA(maxSize).(fade := FadeOut(B, false)))
    ensures FadeOutStep(AfterA(maxSize).(fade := FadeOut(B, false)), 0.25) == Ok(AfterB(maxSize))
  {
    AfterAValid(maxSize);
    var sf := AfterA(maxSize).(fade := FadeOut(B, false));
    assert FadeOutContinues(sf);
    assert Max(1.0 - FadeDelta(0.25), 0.0) == 0.75;
    assert WithVolume(sf, 0, 0.75) == AfterB(maxSize);
  }

  lemma StepEnd(maxSize: nat)
    ensures Valid(AfterB(maxSize))
    ensures Apply(AfterB(maxSize), Advance(0, 2.0, true)) == Step(AfterEnd(maxSize), None)
  {
    AfterBValid(maxSize);
    var s := AfterB(maxSize);
    assert 0 in s.active;
    assert Progress(s, 0, 2.0, true).emitters == AfterEnd(maxSize).emitters;
  }

  /**
    The frame's checks return emitter 0 to the pool; listing it first or
    leaving it to the engine's remaining checks makes no difference.
   */
  lemma CheckReleases(maxSize: nat)
    ensures Valid(AfterEnd(maxSize))
    ensures FrameChecks(AfterEnd(maxSize), [0]) == AfterCheck(maxSize)
    ensures FrameChecks(AfterEnd(maxSize), []) == AfterCheck(maxSize)
  {
    AfterEndValid(maxSize);
    AfterCheckValid(maxSize);
    var s := AfterEnd(maxSize);
    var c := AfterCheck(maxSize);
    CheckReleasesOnce(maxSize);
    assert Ids(1) == [0];
    assert [0] + Ids(s.nextId) == [0, 0];
    assert [] + Ids(s.nextId) == [0];
    assert AutoRelease(c, true, 0) == Ok(c);
    assert AutoReleaseAll(c, true, [0]) == Ok(c) by {
      assert AutoReleaseAll(c, true, [0]) == AutoReleaseAll(c, true, []);
    }
    assert AutoReleaseAll(s, true, [0, 0]) == AutoReleaseAll(c, true, [0]);
    assert AutoReleaseAll(s, true, [0]) == AutoReleaseAll(c, true, []);
  }

  lemma CheckReleasesOnce(maxSize: nat)
    ensures Valid(AfterEnd(maxSize))
    ensures AutoRelease(AfterEnd(maxSize), true, 0) == Ok(AfterCheck(maxSize))
  {
    AfterEndValid(maxSize);
    var s := AfterEnd(maxSize);
    ReleaseAtEnd(maxSize);
    assert Finished(s.emitters[0]);
  }

  lemma ReleaseAtEnd(maxSize: nat)
    ensures Valid(AfterEnd(maxSize))
    ensures Release(AfterEnd(maxSize), 0) == Ok(AfterCheck(maxSize))
  {
    AfterEndValid(maxSize);
    var s := AfterEnd(maxSize);
    assert Release(s, 0) == Ok(Returned(s, 0));
    ReturnedAtEnd(maxSize);
  }

  lemma ReturnedAtEnd(maxSize: nat)
    ensures Valid(AfterEnd(maxSize))
    ensures Returned(AfterEnd(maxSize), 0) == AfterCheck(maxSize)
  {
    AfterEndValid(maxSize);
    var s := AfterEnd(maxSize);
    assert ClearRecency(s.recent, A, 0) == map[A := None];
    if maxSize > 0 {
      assert s.emitters[0 := Deactivated(s.emitters[0])] == AfterCheck(maxSize).emitters;
    } else {
      assert s.emitters - {0} == map[];
    }
  }

  /** The change sequence then finds nothing playing and releases emitter 0 again. */
  lemma SequenceReleasesAgain(maxSize: nat)
    ensures Valid(AfterCheck(maxSize))
    ensures FadeStep(AfterCheck(maxSize), 0.25) == Err(if maxSize > 0 then AlreadyReleased(0) else Destroyed(0))
  {
    AfterCheckValid(maxSize);
    var s := AfterCheck(maxSize);
    assert !FadeOutContinues(s);
    assert Release(s, 0) == Err(if maxSize > 0 then AlreadyReleased(0) else Destroyed(0));
  }

  /** The frame's checks: emitter 0 returns itself to the pool. */
  lemma StepChecks(maxSize: nat)
    ensures Valid(AfterEnd(maxSize))
    ensures Apply(AfterEnd(maxSize), Checks([0])) == Step(AfterCheck(maxSize), None)
  {
    CheckReleases(maxSize);
    ApplyChecks(AfterEnd(maxSize), [0]);
  }

  lemma ApplyChecks(s: Sound, order: seq<EmitterId>)
    requires Valid(s)
    ensures Apply(s, Checks(order)) == Step(FrameChecks(s, order), None)
  {
  }

  /** The frame's resumption: the change sequence releases emitter 0 again and ends. */
  lemma StepResume(maxSize: nat)
    ensures Valid(AfterCheck(maxSize))
    ensures Apply(AfterCheck(maxSize), Resume(0.25)) ==
      Step(AfterCheck(maxSize).(fade := NoFade), Some(if maxSize > 0 then AlreadyReleased(0) else Destroyed(0)))
  {
    SequenceReleasesAgain(maxSize);
  }

  /**
    Music A (not looping) plays on emitter 0; music B is requested, so A starts
    fading out; the engine plays A to its end during the fade; on the next
    frame emitter 0 returns itself to the pool, and the change sequence, finding
    nothing playing, releases emitter 0 a second time. With room in the idle
    store the pool's collection check rejects that release; with none, the
    emitter has been destroyed at once and the release reaches a destroyed
    object, where the engine, which destroys at the end of the frame, would
    not fault. Either way the change sequence ends there: B never plays, and the BGM slot
    still names emitter 0, which is no longer active.
   */
  lemma DoubleRelease(maxSize: nat)
    ensures Apply(Init(maxSize), PlayBgm(A, false, 0.0)) == Step(AfterA(maxSize), None)
    ensures Valid(AfterA(maxSize)) && Apply(AfterA(maxSize), PlayBgm(B, false, 0.25)) == Step(AfterB(maxSize), None)
    ensures Valid(AfterB(maxSize)) && Apply(AfterB(maxSize), Advance(0, 2.0, true)) == Step(AfterEnd(maxSize), None)
    ensures Valid(AfterEnd(maxSize)) && Apply(AfterEnd(maxSize), Checks([0])) == Step(AfterCheck(maxSize), None)
    ensures Valid(AfterCheck(maxSize))
    ensures var r := Apply(AfterCheck(maxSize), Resume(0.25));
      && r.fault == Some(if maxSize > 0 then AlreadyReleased(0) else Destroyed(0))
      && r.state.fade == NoFade && r.state.bgm == Some(0) && r.state.active == {}
  {
    StepA(maxSize);
    StepB(maxSize);
    StepEnd(maxSize);
    StepChecks(maxSize);
    StepResume(maxSize);
  }

  /** A sound effect played with overlap. */
  const X: Clip := Clip(2, 1.0)

  /** The emitter the sound effect plays on: the reset and bound emitter 0. */
  const PlayingX: Emitter := Emitter(Some(X), false, 1.0, Some(SeGroup), true, true, 0.0)

  /** After the sound effect has taken emitter 0 back from the idle store. */
  function AfterSe(maxSize: nat): Sound {
    Sound(map[0 := PlayingX], {0}, [], 1, maxSize, map[A := None, X := Some(0)], Some(0), FadeOut(B, false))
  }

  lemma AfterSeValid(maxSize: nat)
    ensures Valid(AfterSe(maxSize))
  {
    var s := AfterSe(maxSize);
    assert s.emitters.Keys == {0};
    assert PoolValid(s);
  }

  lemma StepSe(maxSize: nat)
    requires maxSize > 0
    ensures Valid(AfterCheck(maxSize))
    ensures Apply(AfterCheck(maxSize), PlaySe(X, true)) == Step(AfterSe(maxSize), None)
  {
    AfterCheckValid(maxSize);
    var s := AfterCheck(maxSize);
    TakeTop(s);
    var t := Take(s);
    assert t.id == 0;
    assert t.state.emitters == map[0 := TakenFromPool(s.emitters[0])];
    var a := PlayAudioClip(s, X, SeGroup, false);
    assert a.id == 0;
    assert a.state.emitters == map[0 := PlayingX];
    assert a.state.recent == map[A := None, X := Some(0)];
    assert a.state == AfterSe(maxSize);
  }

  lemma StepFadeSe(maxSize: nat)
    ensures Valid(AfterSe(maxSize))
    ensures Apply(AfterSe(maxSize), Resume(0.25)) ==
      Step(AfterSe(maxSize).(emitters := map[0 := PlayingX.(volume := 0.75)]), None)
  {
    AfterSeValid(maxSize);
    var s := AfterSe(maxSize);
    assert FadeOutContinues(s);
    assert Max(1.0 - FadeDelta(0.25), 0.0) == 0.75;
    assert WithVolume(s, 0, 0.75) == s.(emitters := map[0 := PlayingX.(volume := 0.75)]);
    assert FadeStep(s, 0.25) == Ok(WithVolume(s, 0, 0.75));
  }

  /**
    As in `DoubleRelease`, music A ends during the change to B and the frame's
    checks return emitter 0 to a pool with room. Before the change sequence
    resumes, another script plays a sound effect with overlap, which takes
    emitter 0 back. The change sequence then finds its slot's emitter playing
    the sound effect and fades that out instead: no fault, nothing released,
    and the sound effect loses volume.
   */
  lemma SoundEffectTakesOverFade(maxSize: nat)
    requires maxSize > 0
    ensures Valid(AfterEnd(maxSize)) && Apply(AfterEnd(maxSize), Checks([0])) == Step(AfterCheck(maxSize), None)
    ensures Valid(AfterCheck(maxSize)) && Apply(AfterCheck(maxSize), PlaySe(X, true)) == Step(AfterSe(maxSize), None)
    ensures Valid(AfterSe(maxSize))
    ensures var r := Apply(AfterSe(maxSize), Resume(0.25));
      && r.fault.None? && r.state.bgm == Some(0) && r.state.fade == FadeOut(B, false)
      && r.state.active == {0} && r.state.emitters[0].clip == Some(X)
      && r.state.emitters[0].volume == 0.75
  {
    StepChecks(maxSize);
    StepSe(maxSize);
    StepFadeSe(maxSize);
  }
}

=== FILE: session.dfy ===
/**
  Sequences of calls into the sound manager, interleaved with engine frames,
  and what they can and cannot lead to.
 */
module Session {
  import opened Wrappers
  import opened Emitters
  import opened SoundState
  import opened ObjectPool
  import opened SoundManager
  import opened PoolItem

  /**
    One thing that can happen to the manager. `dt` is the duration of the
    current frame. Clips passed to the manager are never null.
   */
  datatype Op =
    | PlaySe(clip: Clip, playOverlap: bool)
    | PlayBgm(clip: Clip, loop: bool, dt: real)
    | Advance(id: EmitterId, position: real, stopped: bool)   // the audio engine plays on
    | Checks(order: seq<EmitterId>)                           // a frame's end-of-clip checks
    | Resume(dt: real)                                        // the frame's resumption of the change sequence

  predicate WellTimed(op: Op) {
    match op
    case PlayBgm(_, _, dt) => dt >= 0.0
    case Resume(dt) => dt >= 0.0
    case _ => true
  }

  /** The state after one operation, and the fault it raised, if any. */
  datatype Step = Step(state: Sound, fault: Option<Fault>)

  /** The state after a sequence of operations, and the faults raised on the way, in order. */
  datatype Trace = Trace(state: Sound, faults: seq<Fault>)

  /**
    The change sequence resumes after a frame of `dt` seconds, as the engine
    resumes suspended sequences once every object's per-frame update has run.
    A fault ends that sequence only: the state is as the fault found it, and
    the game carries on with the next frame.
   */
  function ResumeFade(s: Sound, dt: real): (r: Step)
    requires Valid(s) && dt >= 0.0
    ensures Valid(r.state)
    ensures r.fault.Some? ==> s.fade != NoFade
    ensures r.fault.Some? ==> r.fault.value.AlreadyReleased? || r.fault.value.Destroyed?
    ensures r.fault.Some? ==> FadeStep(s, dt) == Err(r.fault.value) && r.state == s.(fade := NoFade)
    ensures r.fault.None? ==> FadeStep(s, dt) == Ok(r.state)
    ensures s.fade == NoFade ==> r == Step(s, None)
  {
    match FadeStep(s, dt)
    case Err(f) =>
      EndFadeValid(s);
      Step(s.(fade := NoFade), Some(f))
    case Ok(s1) => Step(s1, None)
  }

  /** Dropping the change sequence keeps the invariant. */
  lemma EndFadeValid(s: Sound)
    requires Valid(s)
    ensures Valid(s.(fade := NoFade))
  {
    var s' := s.(fade := NoFade);
    assert PoolValid(s') && ActiveBound(s') && RecencySound(s');
  }

  /**
    Applies one operation. A frame is a `Checks` followed by a `Resume`; other
    scripts' calls into the manager may come in between. Only the resumption
    of a running change sequence can fault.
   */
  function Apply(s: Sound, op: Op): (r: Step)
    requires Valid(s) && WellTimed(op)
    ensures Valid(r.state)
    ensures r.fault.Some? ==> op.Resume? && s.fade != NoFade
    ensures r.fault.Some? ==> r.fault.value.AlreadyReleased? || r.fault.value.Destroyed?
  {
    match op
    case PlaySe(clip, overlap) => Step(PlaySE(s, clip, overlap), None)
    case PlayBgm(clip, loop, dt) => Step(PlayBGM(s, clip, loop, dt).value, None)
    case Advance(id, position, stopped) => Step(Progress(s, id, position, stopped), None)
    case Checks(order) => Step(FrameChecks(s, order), None)
    case Resume(dt) => ResumeFade(s, dt)
  }

  /** How many resumptions of the change sequence a sequence of operations contains. */
  function ResumeCount(ops: seq<Op>): nat {
    if |ops| == 0 then 0 else (if ops[0].Resume? then 1 else 0) + ResumeCount(ops[1..])
  }

  /**
    Runs a sequence of operations. From any state between manager calls, the
    only faults that can ever arise are the change sequence's release of an
    emitter that is already back in the pool and its access to one that has
    been destroyed, at most one per resumption: the recency map is never indexed
    with a missing clip, and no per-frame check ever finds an emitter without
    a clip.
   */
  function Run(s: Sound, ops: seq<Op>): (r: Trace)
    requires Valid(s) && forall i :: 0 <= i < |ops| ==> WellTimed(ops[i])
    ensures Valid(r.state)
    ensures forall f :: f in r.faults ==> f.AlreadyReleased? || f.Destroyed?
    ensures |r.faults| <= ResumeCount(ops)
    decreases |ops|
  {
    if |ops| == 0 then Trace(s, [])
    else
      var st := Apply(s, ops[0]);
      var rest := Run(st.state, ops[1..]);
      var now := if st.fault.Some? then [st.fault.value] else [];
      assert |now| <= (if ops[0].Resume? then 1 else 0);
      Trace(rest.state, now + rest.faults)
  }

  /** Every emitter's volume stays within [0, 1], whatever sequence of operations runs. */
  lemma RunKeepsVolumes(maxSize: nat, ops: seq<Op>)
    requires forall i :: 0 <= i < |ops| ==> WellTimed(ops[i])
    ensures var r := Run(Init(maxSize), ops).state;
      forall x :: x in r.emitters ==> InUnitRange(r.emitters[x].volume)
  {
  }

  /** The recency map never names an idle or destroyed emitter, whatever sequence of operations runs. */
  lemma RunKeepsRecency(maxSize: nat, ops: seq<Op>, c: Clip)
    requires forall i :: 0 <= i < |ops| ==> WellTimed(ops[i])
    ensures var r := Run(Init(maxSize), ops).state;
      c in r.recent && r.recent[c].Some? ==>
        var x := r.recent[c].value;
        x in r.active && x !in r.idle && x in r.emitters
  {
  }

  /**
    The per-frame check of an emitter the pool has just handed out faults: the
    reset has unbound its clip, so reading the clip's length dereferences
    nothing. Binding the clip right after taking the emitter, in the same call,
    is what keeps this from happening.
   */
  lemma TakenEmitterCheckFaults(s: Sound)
    requires PoolValid(s)
    ensures var t := Take(s);
      AutoRelease(t.state, true, t.id) == Err(NullClip(t.id))
  {
  }

  /**
    Two sound effects of the same clip without overlap, one right after the
    other: the second restarts the emitter the first one left in the recency
    map, so no emitter is acquired for it.
   */
  lemma PlaySETwiceReuses(s: Sound, clip: Clip)
    requires Valid(s)
    ensures var s1 := PlaySE(s, clip, false);
      var s2 := PlaySE(s1, clip, false);
      && s2.active == s1.active && s2.recent == s1.recent
      && s2.emitters.Keys == s1.emitters.Keys
  {
    var s1 := PlaySE(s, clip, false);
    assert Suppressed(s1, clip, false);
  }
}

=== FILE: sound_manager.dfy ===
/**
  The playback side of the sound manager: binding a clip to a pooled emitter,
  sound effects with optional overlap suppression, background music with its
  fade sequence, advanced one tick at a time.
 */
module SoundManager {
  import opened Wrappers
  import opened Emitters
  import opened SoundState
  import opened ObjectPool
  import opened PoolItem

  /** Seconds a full fade-out or fade-in takes. */
  const VolumeFadeTime: real := 1.0

  /** The volume change one tick of `dt` seconds makes. */
  function FadeDelta(dt: real): real {
    dt / VolumeFadeTime
  }

  function Max(a: real, b: real): real {
    if a >= b then a else b
  }

  function Min(a: real, b: real): real {
    if a <= b then a else b
  }

  /**
    Takes an emitter from the pool, routes it to `group`, binds `clip` and
    `loop`, starts it, and records it as the clip's most recent emitter.
   */
  function PlayAudioClip(s: Sound, clip: Clip, group: Group, loop: bool): (r: Acquired)
    requires Valid(s)
    ensures Valid(r.state)
    ensures r.id !in s.active && r.state.active == s.active + {r.id}
    ensures r.id in r.state.emitters
    ensures var e := r.state.emitters[r.id];
      && e.clip == Some(clip) && e.group == Some(group) && e.loop == loop
      && e.playing && e.position == 0.0 && e.volume == 1.0 && e.active
    ensures r.state.recent == s.recent[clip := Some(r.id)]
    ensures r.state.emitters.Keys == s.emitters.Keys + {r.id}
    ensures forall x :: x in s.emitters && x != r.id ==> r.state.emitters[x] == s.emitters[x]
    ensures r.state.bgm == s.bgm && r.state.fade == s.fade && r.state.maxSize == s.maxSize
  {
    var t := Take(s);
    var e := t.state.emitters[t.id];
    var e' := Started(e.(group := Some(group), clip := Some(clip), loop := loop));
    var s' := t.state.(emitters := t.state.emitters[t.id := e'],
                       recent := t.state.recent[clip := Some(t.id)]);
    BindValid(s, t, clip, e');
    Acquired(s', t.id)
  }

  /** Binding a clip to a just-taken emitter and recording it restores `Valid`. */
  lemma BindValid(s: Sound, t: Acquired, clip: Clip, e': Emitter)
    requires Valid(s) && PoolValid(t.state)
    requires t.id !in s.active && t.state.active == s.active + {t.id}
    requires t.id in t.state.emitters && t.state.recent == s.recent
    requires t.state.bgm == s.bgm && t.state.fade == s.fade
    requires forall x :: x in s.emitters && x != t.id ==> x in t.state.emitters && t.state.emitters[x] == s.emitters[x]
    requires e'.clip == Some(clip) && e'.active && e'.playing && e'.volume == 1.0
    ensures Valid(t.state.(emitters := t.state.emitters[t.id := e'],
                           recent := t.state.recent[clip := Some(t.id)]))
  {
    var s' := t.state.(emitters := t.state.emitters[t.id := e'],
                       recent := t.state.recent[clip := Some(t.id)]);
    UpdateKeepsPool(t.state, t.id, e');
    BindActiveBound(s, t, clip, e');
    BindRecencySound(s, t, clip, e');
  }

  lemma BindActiveBound(s: Sound, t: Acquired, clip: Clip, e': Emitter)
    requires Valid(s)
    requires t.id !in s.active && t.state.active == s.active + {t.id}
    requires t.id in t.state.emitters && t.state.recent == s.recent
    requires forall x :: x in s.emitters && x != t.id ==> x in t.state.emitters && t.state.emitters[x] == s.emitters[x]
    requires e'.clip == Some(clip)
    ensures ActiveBound(t.state.(emitters := t.state.emitters[t.id := e'],
                                 recent := t.state.recent[clip := Some(t.id)]))
  {
    var s' := t.state.(emitters := t.state.emitters[t.id := e'],
                       recent := t.state.recent[clip := Some(t.id)]);
    forall x | x in s'.active
      ensures x in s'.emitters && s'.emitters[x].clip.Some? && s'.emitters[x].clip.value in s'.recent
    {
      if x != t.id {
        assert x in s.active;
      }
    }
  }

  lemma BindRecencySound(s: Sound, t: Acquired, clip: Clip, e': Emitter)
    requires Valid(s)
    requires t.id !in s.active && t.state.active == s.active + {t.id}
    requires t.id in t.state.emitters && t.state.recent == s.recent
    requires forall x :: x in s.emitters && x != t.id ==> x in t.state.emitters && t.state.emitters[x] == s.emitters[x]
    requires e'.clip == Some(clip)
    ensures RecencySound(t.state.(emitters := t.state.emitters[t.id := e'],
                                  recent := t.state.recent[clip := Some(t.id)]))
  {
    var s' := t.state.(emitters := t.state.emitters[t.id := e'],
                       recent := t.state.recent[clip := Some(t.id)]);
    forall c | c in s'.recent && s'.recent[c].Some?
      ensures var x := s'.recent[c].value;
        x in s'.active && x in s'.emitters && s'.emitters[x].clip == Some(c)
    {
      if c != clip {
        var x := s.recent[c].value;
        assert x in s.active;
      }
    }
  }

  /**
    What `PlayAudioClip` leaves behind when it is given a null clip: the
    emitter has been taken, routed and bound to nothing, `Play()` has nothing to
    start, and the recency-map update then throws on the null key. The emitter
    stays active without a clip, outside the invariant: its per-frame check
    faults on every frame, and the pool's return hook would fault on it too, so
    it is never returned.
   */
  function PlayAudioClipNull(s: Sound, group: Group, loop: bool): (r: Acquired)
    requires PoolValid(s)
    ensures PoolValid(r.state) && !ActiveBound(r.state)
    ensures r.id !in s.active && r.state.active == s.active + {r.id}
    ensures r.id in r.state.emitters
    ensures var e := r.state.emitters[r.id];
      e.clip.None? && e.group == Some(group) && e.loop == loop && !e.playing && e.active
    ensures r.state.recent == s.recent && r.state.bgm == s.bgm && r.state.fade == s.fade
    ensures AutoRelease(r.state, true, r.id) == Err(NullClip(r.id))
    ensures Release(r.state, r.id) == Err(NullClip(r.id))
  {
    var t := Take(s);
    var e := t.state.emitters[t.id];
    var e' := e.(group := Some(group), clip := None, loop := loop);
    UpdateKeepsPool(t.state, t.id, e');
    Acquired(t.state.(emitters := t.state.emitters[t.id := e']), t.id)
  }

  /** Whether `PlaySE` restarts the clip's recent emitter instead of acquiring one. */
  predicate Suppressed(s: Sound, clip: Clip, playOverlap: bool) {
    !playOverlap && clip in s.recent && s.recent[clip].Some?
  }

  /**
    Plays a sound effect. Without overlap, an emitter the recency map still
    names for the clip is restarted from the beginning and nothing is acquired;
    in every other case exactly one emitter is acquired for the clip.
   */
  function PlaySE(s: Sound, clip: Clip, playOverlap: bool): (r: Sound)
    requires Valid(s)
    ensures Valid(r)
    ensures Suppressed(s, clip, playOverlap) ==>
      var x := s.recent[clip].value;
      && r.active == s.active && r.emitters.Keys == s.emitters.Keys && r.idle == s.idle
      && r.recent == s.recent
      && x in r.emitters && r.emitters[x].playing && r.emitters[x].position == 0.0
      && r.emitters[x].clip == Some(clip) && r.emitters[x].volume == s.emitters[x].volume
      && (forall y :: y in s.emitters && y != x ==> r.emitters[y] == s.emitters[y])
    ensures !Suppressed(s, clip, playOverlap) ==>
      && clip in r.recent && r.recent[clip].Some?
      && var x := r.recent[clip].value;
      && x !in s.active && r.active == s.active + {x}
      && r.emitters[x].clip == Some(clip) && r.emitters[x].group == Some(SeGroup)
      && !r.emitters[x].loop && r.emitters[x].playing
      && (forall c :: c in s.recent && c != clip ==> c in r.recent && r.recent[c] == s.recent[c])
    ensures r.bgm == s.bgm && r.fade == s.fade
  {
    if Suppressed(s, clip, playOverlap) then
      var x := s.recent[clip].value;
      RestartValid(s, x);
      Restarted(s, x)
    else
      PlayAudioClip(s, clip, SeGroup, false).state
  }

  /** The state after `Play()` on the active emitter `x`. */
  function Restarted(s: Sound, x: EmitterId): Sound
    requires x in s.emitters
  {
    s.(emitters := s.emitters[x := Started(s.emitters[x])])
  }

  lemma RestartValid(s: Sound, x: EmitterId)
    requires Valid(s) && x in s.active
    ensures Valid(Restarted(s, x))
  {
    var r := Restarted(s, x);
    UpdateKeepsPool(s, x, Started(s.emitters[x]));
    assert ActiveBound(r);
    assert RecencySound(r);
  }

  /**
    Whether the BGM slot holds an emitter that is playing. An emitter that has
    been destroyed compares equal to null in the engine, so it counts as absent.
   */
  predicate BgmPlaying(s: Sound) {
    s.bgm.Some? && s.bgm.value in s.emitters && s.emitters[s.bgm.value].playing
  }

  /** The condition of the fade-out loop of the change sequence. */
  predicate FadeOutContinues(s: Sound) {
    BgmPlaying(s) && s.emitters[s.bgm.value].volume > 0.0
  }

  /**
    The hand-over in the middle of the change sequence: the outgoing emitter in
    the BGM slot is released, then the incoming clip is played on a newly
    acquired emitter, which enters the slot at volume 0.
   */
  function Handover(s: Sound, clip: Clip, loop: bool): (r: Result<Acquired, Fault>)
    requires Valid(s) && s.bgm.Some?
    ensures var out := s.bgm.value;
      r.Ok? <==> out in s.active
    ensures r.Err? ==> r.error == AlreadyReleased(s.bgm.value) || r.error == Destroyed(s.bgm.value)
    ensures r.Ok? ==>
      var out := s.bgm.value;
      var t := r.value;
      && Valid(t.state)
      && t.state.bgm == Some(t.id)
      && t.id !in s.active - {out}
      && t.state.active == (s.active - {out}) + {t.id}
      && t.state.emitters[t.id].volume == 0.0
      && t.state.emitters[t.id].clip == Some(clip) && t.state.emitters[t.id].loop == loop
      && t.state.emitters[t.id].group == Some(BgmGroup) && t.state.emitters[t.id].playing
      && t.state.fade == s.fade
      && (forall y :: y in s.emitters && y != out && y != t.id ==> y in t.state.emitters && t.state.emitters[y] == s.emitters[y])
      && t.state.recent.Keys == s.recent.Keys + {clip}
      && t.state.recent[clip] == Some(t.id)
      && (forall c :: c in s.recent && c != clip ==>
            t.state.recent[c] == (if s.recent[c] == Some(out) then None else s.recent[c]))
  {
    var out := s.bgm.value;
    ReleaseFromValid(s, out);
    match Release(s, out)
    case Err(f) => Err(f)
    case Ok(s1) =>
      ReleaseRecency(s, out);
      assert Valid(s1) && s1.active == s.active - {out};
      var a := PlayAudioClip(s1, clip, BgmGroup, loop);
      WithVolumeValid(a.state, a.id, 0.0);
      WithVolumeOnly(a.state, a.id, 0.0);
      var s2 := WithVolume(a.state, a.id, 0.0);
      var s3 := s2.(bgm := Some(a.id));
      assert Valid(s3);
      assert s3.recent == s1.recent[clip := Some(a.id)];
      RecordAfterClear(s.recent, out, s1.recent, clip, a.id);
      assert forall y :: y in s.emitters && y != out && y != a.id ==> y in s1.emitters && s1.emitters[y] == s.emitters[y];
      assert forall y :: y in s1.emitters && y != a.id ==> y in s3.emitters && s3.emitters[y] == s1.emitters[y];
      Ok(Acquired(s3, a.id))
  }

  /**
    Recording `clip` for `id` in a recency map from which the entries naming
    `out` have been cleared: `clip` names `id`, and every other clip names what
    it named before unless that was `out`.
   */
  lemma RecordAfterClear(recent: map<Clip, Option<EmitterId>>, out: EmitterId,
                         cleared: map<Clip, Option<EmitterId>>, clip: Clip, id: EmitterId)
    requires cleared.Keys == recent.Keys
    requires forall c :: c in recent ==> cleared[c] == (if recent[c] == Some(out) then None else recent[c])
    ensures cleared[clip := Some(id)].Keys == recent.Keys + {clip}
    ensures cleared[clip := Some(id)][clip] == Some(id)
    ensures forall c :: c in recent && c != clip ==>
      cleared[clip := Some(id)][c] == (if recent[c] == Some(out) then None else recent[c])
  {
  }

  /**
    One tick of the fade-out part of the change sequence: while the BGM emitter
    plays at a positive volume, its volume drops by `dt / VolumeFadeTime`, not
    below 0. Once that no longer holds, the hand-over runs and the first
    fade-in increment is applied to the incoming emitter.
   */
  function FadeOutStep(s: Sound, dt: real): (r: Result<Sound, Fault>)
    requires Valid(s) && dt >= 0.0 && s.fade.FadeOut?
    ensures r.Ok? ==> Valid(r.value)
    ensures r.Err? ==> r.error.AlreadyReleased? || r.error.Destroyed?
    ensures FadeOutContinues(s) ==>
      var x := s.bgm.value;
      && r.Ok? && r.value.bgm == s.bgm && r.value.fade == s.fade && x in r.value.emitters
      && r.value.emitters[x].volume == Max(s.emitters[x].volume - FadeDelta(dt), 0.0)
      && r.value.emitters[x].volume <= s.emitters[x].volume
      && r.value.active == s.active
      && OnlyVolumeChanged(s, r.value, x)
    ensures !FadeOutContinues(s) ==>
      var out := s.bgm.value;
      && (r.Ok? <==> out in s.active)
      && (r.Ok? ==>
            && r.value.bgm.Some?
            && var x := r.value.bgm.value;
            && x in r.value.emitters && r.value.fade == FadeIn
            && r.value.active == (s.active - {out}) + {x}
            && r.value.emitters[x].clip == Some(s.fade.clip)
            && r.value.emitters[x].loop == s.fade.loop
            && r.value.emitters[x].volume == Min(FadeDelta(dt), 1.0)
            && r.value.emitters[x].playing && r.value.emitters[x].group == Some(BgmGroup))
  {
    if FadeOutContinues(s) then
      var x := s.bgm.value;
      var v := Max(s.emitters[x].volume - FadeDelta(dt), 0.0);
      WithVolumeValid(s, x, v);
      WithVolumeOnly(s, x, v);
      Ok(WithVolume(s, x, v))
    else FadeOutEnd(s, dt)
  }

  /**
    `r` is the state in which the change sequence enters its fade-in part after
    a tick from `s`: the outgoing emitter `out` has left the pool's active set,
    and a new emitter in the slot plays the requested clip on the BGM group from
    the start, at the first fade-in increment. The recency entry for the
    requested clip names it, entries naming `out` are cleared, and every other
    emitter and recency entry is as it was.
   */
  ghost predicate FadeInBegun(s: Sound, dt: real, r: Sound)
    requires s.bgm.Some? && s.fade.FadeOut?
  {
    var out := s.bgm.value;
    && r.bgm.Some?
    && var x := r.bgm.value;
    && x in r.emitters && r.fade == FadeIn
    && r.active == (s.active - {out}) + {x}
    && r.emitters[x].clip == Some(s.fade.clip)
    && r.emitters[x].loop == s.fade.loop
    && r.emitters[x].volume == Min(FadeDelta(dt), 1.0)
    && r.emitters[x].playing && r.emitters[x].group == Some(BgmGroup)
    && r.emitters[x].position == 0.0
    && (forall y :: y in s.emitters && y != out && y != x ==> y in r.emitters && r.emitters[y] == s.emitters[y])
    && r.recent.Keys == s.recent.Keys + {s.fade.clip}
    && r.recent[s.fade.clip] == Some(x)
    && (forall c :: c in s.recent && c != s.fade.clip ==>
          r.recent[c] == (if s.recent[c] == Some(out) then None else s.recent[c]))
  }

  /** The hand-over's result with the first fade-in increment applied. */
  function BeginFadeIn(t: Acquired, dt: real): Sound
    requires t.id in t.state.emitters
  {
    WithVolume(t.state, t.id, Min(0.0 + FadeDelta(dt), 1.0)).(fade := FadeIn)
  }

  lemma BeginFadeInFrom(s: Sound, t: Acquired, dt: real)
    requires Valid(s) && dt >= 0.0 && s.fade.FadeOut? && s.bgm.Some?
    requires Handover(s, s.fade.clip, s.fade.loop) == Ok(t)
    ensures t.id in t.state.emitters
    ensures Valid(BeginFadeIn(t, dt))
    ensures FadeInBegun(s, dt, BeginFadeIn(t, dt))
  {
    var v := Min(0.0 + FadeDelta(dt), 1.0);
    WithVolumeValid(t.state, t.id, v);
    WithVolumeOnly(t.state, t.id, v);
    var r := BeginFadeIn(t, dt);
    assert Valid(r);
    assert r.recent == t.state.recent && r.bgm == t.state.bgm && r.active == t.state.active;
    assert forall y :: y in t.state.emitters && y != t.id ==> y in r.emitters && r.emitters[y] == t.state.emitters[y];
  }

  /** The tick on which the fade-out loop exits: hand-over plus the first fade-in increment. */
  function FadeOutEnd(s: Sound, dt: real): (r: Result<Sound, Fault>)
    requires Valid(s) && dt >= 0.0 && s.fade.FadeOut? && s.bgm.Some?
    ensures r.Ok? ==> Valid(r.value)
    ensures r.Err? ==> r.error == AlreadyReleased(s.bgm.value) || r.error == Destroyed(s.bgm.value)
    ensures r.Ok? <==> s.bgm.value in s.active
    ensures r.Ok? ==> FadeInBegun(s, dt, r.value)
  {
    match Handover(s, s.fade.clip, s.fade.loop)
    case Err(f) => Err(f)
    case Ok(t) =>
      BeginFadeInFrom(s, t, dt);
      Ok(BeginFadeIn(t, dt))
  }

  /**
    One tick of the fade-in part of the change sequence: while the BGM
    emitter's volume is below 1 it rises by `dt / VolumeFadeTime`, not above 1;
    after that the sequence ends.
   */
  function FadeInStep(s: Sound, dt: real): (r: Result<Sound, Fault>)
    requires Valid(s) && dt >= 0.0 && s.fade == FadeIn
    ensures r.Ok? ==> Valid(r.value)
    ensures var x := s.bgm.value;
      && (r.Ok? <==> x in s.emitters)
      && (r.Err? ==> r.error == Destroyed(x))
      && (r.Ok? && s.emitters[x].volume < 1.0 ==>
            && x in r.value.emitters && r.value.fade == FadeIn && r.value.bgm == s.bgm && r.value.active == s.active
            && r.value.emitters[x].volume == Min(s.emitters[x].volume + FadeDelta(dt), 1.0)
            && r.value.emitters[x].volume >= s.emitters[x].volume
            && OnlyVolumeChanged(s, r.value, x))
      && (r.Ok? && s.emitters[x].volume >= 1.0 ==> r.value == s.(fade := NoFade))
  {
    var x := s.bgm.value;
    if x !in s.emitters then Err(Destroyed(x))
    else if s.emitters[x].volume < 1.0 then
      var v := Min(s.emitters[x].volume + FadeDelta(dt), 1.0);
      WithVolumeValid(s, x, v);
      WithVolumeOnly(s, x, v);
      Ok(WithVolume(s, x, v))
    else Ok(s.(fade := NoFade))
  }

  /**
    Resumes the background-music change sequence for one tick of `dt` seconds,
    up to its next suspension point or its end.
   */
  function FadeStep(s: Sound, dt: real): (r: Result<Sound, Fault>)
    requires Valid(s) && dt >= 0.0
    ensures r.Ok? ==> Valid(r.value)
    ensures r.Err? ==> (r.error.AlreadyReleased? || r.error.Destroyed?) && s.fade != NoFade
    ensures s.fade == NoFade ==> r == Ok(s)
  {
    match s.fade
    case NoFade() => Ok(s)
    case FadeOut(_, _) => FadeOutStep(s, dt)
    case FadeIn() => FadeInStep(s, dt)
  }

  /**
    Plays background music. With no BGM emitter, or one that is not playing,
    the clip is played at full volume on a newly acquired emitter and any
    running change sequence is left running. Otherwise the running sequence is
    dropped and a new one is started, which runs up to its first suspension
    point in this tick of `dt` seconds.
   */
  function PlayBGM(s: Sound, clip: Clip, loop: bool, dt: real): (r: Result<Sound, Fault>)
    requires Valid(s) && dt >= 0.0
    ensures r.Ok? && Valid(r.value)
    ensures !BgmPlaying(s) ==>
      && r.value.bgm.Some?
      && var x := r.value.bgm.value;
      && x !in s.active && r.value.active == s.active + {x}
      && r.value.emitters[x].clip == Some(clip) && r.value.emitters[x].loop == loop
      && r.value.emitters[x].group == Some(BgmGroup)
      && r.value.emitters[x].volume == 1.0 && r.value.emitters[x].playing
      && r.value.fade == s.fade
    ensures BgmPlaying(s) && s.emitters[s.bgm.value].volume > 0.0 ==>
      var x := s.bgm.value;
      && r.value.bgm == s.bgm && r.value.fade == FadeOut(clip, loop)
      && r.value.active == s.active
      && r.value.emitters[x].volume == Max(s.emitters[x].volume - FadeDelta(dt), 0.0)
    ensures BgmPlaying(s) && s.emitters[s.bgm.value].volume <= 0.0 ==>
      && r.value.fade == FadeIn && r.value.bgm.Some? && r.value.bgm.value in r.value.emitters
      && r.value.emitters[r.value.bgm.value].clip == Some(clip)
  {
    if !BgmPlaying(s) then
      var a := PlayAudioClip(s, clip, BgmGroup, loop);
      Ok(a.state.(bgm := Some(a.id)))
    else
      var s' := s.(fade := FadeOut(clip, loop));
      assert Valid(s') && FadeOutContinues(s') == (s.emitters[s.bgm.value].volume > 0.0);
      FadeOutStep(s', dt)
  }
}

=== FILE: sound_state.dfy ===
/**
  The whole state the sound manager keeps: the emitters the pool owns, the
  pool's idle/active partition, the per-clip recency map, the background-music
  slot and the phase of the background-music fade.
 */
module SoundState {
  import opened Wrappers
  import opened Emitters

  /**
    Where the background-music change sequence stands. `FadeOut` is also the
    state of a sequence that has just been started; the sequence keeps only the
    clip and loop flag it was started with and always acts on whatever emitter
    the BGM slot holds when it resumes.
   */
  datatype Fade = NoFade | FadeOut(clip: Clip, loop: bool) | FadeIn

  /** The faults the manager can raise (the engine's exceptions). */
  datatype Fault =
    | AlreadyReleased(id: EmitterId)                 // the pool's collection check
    | Destroyed(id: EmitterId)                       // the emitter's game object no longer exists
    | NullClip(id: EmitterId)                        // the emitter's clip is read while unset
    | MissingRecencyKey(id: EmitterId, clip: Clip)   // the recency map is indexed with a clip it lacks

  datatype Sound = Sound(
    emitters: map<EmitterId, Emitter>,   // every emitter that exists (not destroyed)
    active: set<EmitterId>,              // handed out by the pool
    idle: seq<EmitterId>,                // kept by the pool, most recently returned last
    nextId: EmitterId,                   // the identity the next created emitter receives
    maxSize: nat,                        // how many idle emitters the pool keeps
    recent: map<Clip, Option<EmitterId>>,
    bgm: Option<EmitterId>,
    fade: Fade)

  /** An emitter handed out, together with the state after handing it out. */
  datatype Acquired = Acquired(state: Sound, id: EmitterId)

  ghost predicate NoDuplicates(q: seq<EmitterId>) {
    forall i, j :: 0 <= i < j < |q| ==> q[i] != q[j]
  }

  /** The pool's bookkeeping: every existing emitter is either active or idle, never both. */
  ghost predicate PoolValid(s: Sound) {
    && NoDuplicates(s.idle)
    && |s.idle| <= s.maxSize
    && (forall x :: x in s.idle ==> x in s.emitters && x !in s.active)
    && (forall x :: x in s.active ==> x in s.emitters)
    && (forall x :: x in s.emitters ==> x in s.active || x in s.idle)
    && (forall x :: x in s.emitters ==> x < s.nextId)
    && (forall x :: x in s.emitters ==> (s.emitters[x].active <==> x in s.active))
    && (forall x :: x in s.emitters ==> s.emitters[x].playing ==> s.emitters[x].active)
    && (forall x :: x in s.emitters ==> InUnitRange(s.emitters[x].volume))
  }

  /** Every active emitter has a clip, and that clip is a key of the recency map. */
  ghost predicate ActiveBound(s: Sound) {
    forall x :: x in s.active ==>
      x in s.emitters && s.emitters[x].clip.Some? && s.emitters[x].clip.value in s.recent
  }

  /** The recency map only ever names an active emitter bound to that very clip. */
  ghost predicate RecencySound(s: Sound) {
    forall c :: c in s.recent && s.recent[c].Some? ==>
      var x := s.recent[c].value;
      x in s.active && x in s.emitters && s.emitters[x].clip == Some(c)
  }

  /** The state between two calls into the manager. */
  ghost predicate Valid(s: Sound) {
    && PoolValid(s)
    && ActiveBound(s)
    && RecencySound(s)
    && (s.fade != NoFade ==> s.bgm.Some?)
  }

  /** The state right after the manager has created its pool and its recency map. */
  function Init(maxSize: nat): (s: Sound)
    ensures Valid(s)
    ensures s.emitters == map[] && s.recent == map[] && s.bgm == None && s.fade == NoFade
    ensures s.maxSize == maxSize
  {
    Sound(map[], {}, [], 0, maxSize, map[], None, NoFade)
  }

  /** Sets the volume of an existing emitter. */
  function WithVolume(s: Sound, x: EmitterId, v: real): Sound
    requires x in s.emitters
  {
    s.(emitters := s.emitters[x := s.emitters[x].(volume := v)])
  }

  /**
    `r` differs from `s` in nothing but the volume of emitter `x`: the other
    emitters, `x`'s clip, flags and position, the pool, the recency map, the
    BGM slot and the change sequence are all as they were.
   */
  predicate OnlyVolumeChanged(s: Sound, r: Sound, x: EmitterId) {
    && x in s.emitters && x in r.emitters
    && r == WithVolume(s, x, r.emitters[x].volume)
  }

  lemma WithVolumeOnly(s: Sound, x: EmitterId, v: real)
    requires x in s.emitters
    ensures OnlyVolumeChanged(s, WithVolume(s, x, v), x)
    ensures WithVolume(s, x, v).emitters[x].volume == v
    ensures forall y :: y in s.emitters && y != x ==>
      y in WithVolume(s, x, v).emitters && WithVolume(s, x, v).emitters[y] == s.emitters[y]
  {
  }

  lemma WithVolumeValid(s: Sound, x: EmitterId, v: real)
    requires Valid(s) && x in s.emitters && InUnitRange(v)
    ensures Valid(WithVolume(s, x, v))
  {
  }

  /** Replacing one emitter's state keeps the pool's bookkeeping if the flags still agree with it. */
  lemma UpdateKeepsPool(s: Sound, x: EmitterId, e: Emitter)
    requires PoolValid(s) && x in s.emitters
    requires e.active == (x in s.active) && (e.playing ==> e.active) && InUnitRange(e.volume)
    ensures PoolValid(s.(emitters := s.emitters[x := e]))
  {
    var s' := s.(emitters := s.emitters[x := e]);
    assert forall y :: y in s'.emitters ==> y in s.emitters;
  }
}

=== FILE: wrappers.dfy ===
/** Optional values and fallible results, the model's stand-ins for `null` and for exceptions. */
module Wrappers {

  /** A value that may be absent: the model of a nullable reference. */
  datatype Option<+T> = None | Some(value: T)

  /** Either a value or the fault that stopped the computation. */
  datatype Result<+T, +E> = Ok(value: T) | Err(error: E)
}
